=== FILE: README.md ===
# Peek content script — a Dafny model

Peek is a browser extension. It attaches preview popups to links that point
at media and documents. This project models its content script,
`js/contentscript.js`, which runs once when a page loads. The script does
three things:

- `loadDOM` picks out the page's anchors whose `href` ends in a media or
  document suffix, or starts with a Google Docs or Drive prefix. It hands
  each one to the builder for its category, in a fixed category order.
- Every builder sanitizes the `href` and runs it through `processURL`.
  - `processURL` first rewrites Internet Archive snapshot links to their raw
    form and lets the browser resolve the URL.
  - It then checks the URL against the page's protocol (the mixed-content
    guard). A refused URL yields the string `'invalid'`.
  - A URL that is already registered, or is a Wikimedia Commons file page,
    yields `null`.
  - Any other URL is appended to the page's registry of rendered previews,
    and the badge is told the new count.
- The builder then attaches either the error popup or its category's
  player or viewer. The Google Docs builder first cuts a file identifier out
  of the URL. When that identifier is the leftover `'ht'`, it takes the URL
  back out of the registry.

The model is split into these modules:

- `JsString`: the string built-ins the script relies on (`indexOf`,
  `lastIndexOf`, `includes` and `substring`), with ECMAScript's -1 results,
  clamping and argument swapping.
- `JsArray`: `Array.prototype.indexOf` and `splice(start, 1)`, including
  ECMAScript's rule for a negative start.
- `Protocol`: `checkProtocol`.
- `Archive`: the archive regular expression, matched exactly.
  - The literal `web.archive.org/web/` is searched leftmost-first.
  - The date is a greedy run of ASCII digits, followed by `/`.
  - The original URL is a greedy `.*`, which stops at the first JavaScript
    line terminator.
  - Also modelled here: the rewrite, and the exception when the regex does
    not match.
- `Normalizer`: `processURL`.
  - The page state is a `Session`: the registry plus the badge messages sent
    so far.
  - The exceptions the script can raise are a `Fault`.
  - `Consistent` says the registry holds no duplicates and the last badge
    message shows its length.
- `GoogleDocs`: the identifier extraction of `previewGoogleDocs`, together
  with an equivalent table-driven reading of it.
- `Previews`: the five builders. Each returns the popup descriptor it would
  hand to the tooltip library, together with the new session.
- `Scanner`: the selector lists, the processing order, and the single pass
  over the page. The first exception stops the pass.

The script's own words and its code disagree in two places. In both, the
model follows the code:

- The comment on the guard (js/contentscript.js:22) speaks of an HTTPS link,
  and the log line for a refused URL (js/contentscript.js:60) says it "is not
  served over HTTPS". The code, however, looks for `https:` anywhere in the
  URL (`Protocol.MentionOfHttpsSuffices`).
- The comment on the archive rewrite (js/contentscript.js:42) speaks of
  appending `_id` to the date. The code at js/contentscript.js:43 appends
  `id_/` (`Archive.RawFlag`, `Archive.SnapshotRewrite`).

## Model

| member | source | states |
|---|---|---|
| JsString.IndexOf | js/contentscript.js:164 | -1 exactly when the needle does not occur; otherwise the leftmost occurrence |
| JsString.Includes | js/contentscript.js:21 | true exactly when the needle occurs somewhere in the string |
| JsString.LastIndexOf | js/contentscript.js:165 | -1 exactly when the needle does not occur; otherwise an occurrence with none after it |
| JsString.Substring | js/contentscript.js:165 | the result is a piece of the string; it is the slice between the two arguments, in either order, when both are in range; out-of-range arguments are covered by `SubstringClamps` |
| JsString.SubstringFrom | js/contentscript.js:167 | the suffix from the start position; the whole string for a negative start and the empty string past the end |
| JsString.SubstringSymmetric | js/contentscript.js:173 | swapping the two arguments of `substring` does not change the result |
| JsString.SubstringClamps | js/contentscript.js:173 | out-of-range arguments act as the nearest end of the string |
| JsArray.IndexOf | js/contentscript.js:188 | -1 exactly when the element is absent; otherwise its first position |
| JsArray.SpliceOne | js/contentscript.js:188 | removes the element at the ECMAScript-normalised start and keeps the rest in order; a start at the end removes nothing |
| JsArray.SpliceUndoesPush | js/contentscript.js:188 | looking up and splicing out an element that was just pushed, and was not there before, restores the array |
| JsArray.SpliceMissingRemovesLast | js/contentscript.js:188 | a failed lookup (-1) makes `splice` remove the last element |
| Protocol.CheckProtocol | js/contentscript.js:20-31 | a URL mentioning `https:` is always accepted; otherwise one mentioning `http:` is accepted exactly on an `http:` page; any other URL is refused |
| Protocol.HttpsSchemeAccepted | js/contentscript.js:21-23 | an `https://` URL is accepted on every page |
| Protocol.HttpSchemeNeedsHttpPage | js/contentscript.js:24-26 | an `http://` URL without `https:` is accepted exactly when the page is `http:` |
| Protocol.MentionOfHttpsSuffices | js/contentscript.js:21 | any URL whose text contains `https:` passes, whatever its scheme |
| Protocol.SentinelIsRejected | js/contentscript.js:61 | the sentinel `'invalid'` contains neither marker and is refused, so it cannot be confused with an accepted URL |
| Archive.MatchAt | js/contentscript.js:36 | the regex matches at a position exactly when the declarative match holds there; date and original URL are the greedy captures |
| Archive.Exec | js/contentscript.js:39 | `exec` returns the leftmost match, or nothing when no position matches |
| Archive.FirstMatchUnique | js/contentscript.js:39-41 | the leftmost match is unique, so the two `exec` calls agree on date and original URL |
| Archive.Rewrite | js/contentscript.js:37-44 | URLs without `//web.archive.org/` are unchanged; with the marker and no match the rewrite throws; otherwise it yields the raw prefix, date, `id_/` and original URL |
| Archive.SnapshotRewrite | js/contentscript.js:43 | a snapshot link `https://web.archive.org/web/<digits>/<url>`, whose original URL has no line terminator, becomes `…/web/<digits>id_/<url>` |
| Archive.SnapshotExample | js/contentscript.js:43 | an example snapshot of `https://example.com/a.mp4` is rewritten to its `id_` form |
| Archive.HeadInRawPrefix | js/contentscript.js:36 | within the rewritten prefix `https://web.archive.org/web/` the regex's literal can only start at position 8 |
| Archive.RawDateDoesNotMatch | js/contentscript.js:36 | after a rewrite the regex cannot match at the literal, because `id_` stands where it needs `/` after the digits |
| Archive.RewrittenAgainFails | js/contentscript.js:37-43 | rewriting an already raw `…/web/<digits>id_/<url>` link, whose original URL does not itself contain `web.archive.org/web/`, throws, because the regex then needs `/` right after the digits |
| Normalizer.Normalize | js/contentscript.js:37-47 | fails exactly when the archive rewrite throws; a URL without the archive marker is only resolved; a snapshot link is resolved in its raw `…/web/<date>id_/<url>` form, built from the leftmost match |
| Normalizer.ProcessURL | js/contentscript.js:34-63 | throws only for the archive mismatch; `'invalid'` exactly when the guard refuses; `null` exactly for an already registered URL or a Wikimedia file page; otherwise appends exactly that URL, which was absent, and reports the new count; keeps the session consistent |
| Normalizer.SecondCallIsDuplicate | js/contentscript.js:52-53 | processing an accepted link again returns `null` and changes nothing |
| Normalizer.WikimediaPagesNeverRegistered | js/contentscript.js:52-53 | a URL resolving to a Wikimedia file page is never registered, whatever the session |
| Normalizer.UndoRestoresRegistry | js/contentscript.js:188-189 | splicing out an accepted URL by its index restores the registry as it was before the call |
| GoogleDocs.ExtractId | js/contentscript.js:163-174 | the identifier is never longer than the URL and always occurs in it |
| GoogleDocs.EditLink | js/contentscript.js:164-165 | for `<pre>/d/<id>/edit<query>`, with no `/` in `id` or `query` and `id` other than `d`, the identifier is exactly `id` |
| GoogleDocs.EditLinkExample | js/contentscript.js:165 | a typical edit link `…/document/d/ABC123/edit` gives `ABC123` |
| GoogleDocs.OpenLink | js/contentscript.js:166-167 | for `<pre>/open?id=<id>` with no `/` in `id` and no `/edit` anywhere, the identifier is exactly `id` |
| GoogleDocs.PreviewLink | js/contentscript.js:168-169 | for `<pre>/document/d/<id>/preview<query>`, with no `/` in `id` or `query` and no `/edit` or `/open` anywhere, the identifier is exactly `id` |
| GoogleDocs.ViewerLink | js/contentscript.js:170-171 | for `<pre>srcid=<id>&<query>`, with no `&` in `query`, no `srcid=` within `id&query`, `/viewer` present and no `/edit`, `/open` or `/preview`, the identifier is exactly `id`, which runs to the last `&`, so parameters between `srcid=` and it stay in the identifier |
| GoogleDocs.FormLink | js/contentscript.js:172-173 | for `<pre>/d/<id>/viewform<query>`, with no `/` in `id` or `query`, `id` other than `d`, and none of `/edit`, `/open`, `/preview`, `/viewer`, the identifier is exactly `id` |
| GoogleDocs.UnmatchedLink | js/contentscript.js:173 | a URL of two or more characters containing none of `/edit`, `/open`, `/preview`, `/viewer`, `/d/`, `/viewform` gives its first two characters, because `substring(2, -1)` is `substring(0, 2)` |
| GoogleDocs.UnmatchedHttpLinkGivesSentinel | js/contentscript.js:172-176 | an `http…` URL containing none of `/edit`, `/open`, `/preview`, `/viewer`, `/d/`, `/viewform` gives the sentinel `ht` |
| GoogleDocs.BareDocumentLink | js/contentscript.js:172-173 | a URL with `/d/` but none of `/edit`, `/open`, `/preview`, `/viewer`, `/viewform` (such as `https://docs.google.com/document/d/<id>`) gives everything up to and including its last `/d/`: a prefix of the URL, not the identifier and not the sentinel |
| GoogleDocs.TableAgrees | js/contentscript.js:164-174 | the branch chain with its offsets 3, 9, 12 and 6 is the rule table read in order, each offset being its marker's length |
| GoogleDocs.TableFromOpen | js/contentscript.js:166-174 | without `/edit`, the table from its second row agrees with the rest of the chain |
| GoogleDocs.TableFromPreview | js/contentscript.js:168-174 | without `/edit` or `/open`, the table from its third row agrees |
| GoogleDocs.TableFromViewer | js/contentscript.js:170-174 | the viewer row and the forms fallback agree with the last two branches |
| Previews.ContentPopup | js/contentscript.js:85-90 | a content popup's options (interactive, themed) always differ from the error popup's, whatever the content |
| Previews.EmbeddedSource | js/contentscript.js:83 | a source read out of a player string rebuilds that string |
| Previews.EmbedRoundTrip | js/contentscript.js:83 | reading the source back out of a built player gives the URL put in |
| Previews.PreviewVideo | js/contentscript.js:74-98 | fails exactly when `processURL` does, with `processURL`'s own exception; same session; error popup exactly for `'invalid'`; otherwise an autoplaying player around the value, with `null` rendered as `"null"` |
| Previews.PreviewAudio | js/contentscript.js:100-119 | as for video, with the audio player and no autoplay |
| Previews.PreviewDocument | js/contentscript.js:121-131 | fails exactly when `processURL` does, with its exception; registers like the others but attaches a popup only for `'invalid'`, and that popup is the error popup |
| Previews.PreviewPdf | js/contentscript.js:133-152 | as for video, with the browser's PDF viewer and the toolbar hidden |
| Previews.PreviewGoogleDocs | js/contentscript.js:154-192 | a `processURL` exception propagates unchanged; `null` throws; `'invalid'` gives the error popup; an accepted URL gives the Docs viewer around its identifier, or, when the identifier is `ht`, no popup, the registry as before, and two badge messages (count+1, then count); keeps the session consistent |
| Previews.VideoPlaysRegisteredUrl | js/contentscript.js:74-83 | a link that resolves to a new, allowed, non-Wikimedia URL always gets a player, and that player plays exactly the URL just registered |
| Previews.DuplicateVideoPlaysNull | js/contentscript.js:74-83 | a link whose URL is already registered still gets a player, whose source is `"null"`, and the session does not change |
| Previews.DuplicateGoogleDocsThrows | js/contentscript.js:154-164 | a link whose URL is already registered makes the Google Docs builder throw |
| Scanner.Selected | js/contentscript.js:232 | `querySelectorAll` returns exactly the matching anchors, in document order, each once |
| Scanner.WorkFor | js/contentscript.js:231-246 | every item handed to a builder is an anchor selected by its own category |
| Scanner.WorkForMember | js/contentscript.js:231-246 | an item is processed exactly when its category is in the list and its anchor matches that category |
| Scanner.WorkForOrdered | js/contentscript.js:231-246 | with the categories in rank order, items come by category and then by document position |
| Scanner.WorklistShape | js/contentscript.js:195-246 | the worklist holds exactly the selected anchors, ordered video, audio, document, PDF, Google, and by position within each |
| Scanner.OrderedAppend | js/contentscript.js:231-246 | one category's items followed by items of later categories stay ordered |
| Scanner.Preview | js/contentscript.js:232-246 | each builder leaves the registry unchanged or appends exactly the normalized URL of its anchor, and keeps the session consistent |
| Scanner.Run | js/contentscript.js:232-246 | the handled anchors are a prefix of the worklist; the pass stops early exactly when a builder throws, and then the builder of the first unhandled anchor fails with the recorded exception |
| Scanner.RunAppends | js/contentscript.js:232-246 | a pass only appends to the registry, and what it appends is what the handled anchors report |
| Scanner.RunEntriesResolve | js/contentscript.js:232-246 | every entry a pass adds is the resolved URL of the anchor that added it |
| Scanner.RunKeepsConsistent | js/contentscript.js:232-246 | a pass keeps the registry free of duplicates and the badge in step with it |
| Scanner.LoadDOM | js/contentscript.js:195-248 | after a page load the session is consistent; the registry is exactly what the handled anchors added; the handled anchors are a prefix of the worklist, all of it unless a builder threw, and then the first unhandled anchor's builder fails with the recorded exception |
| Scanner.RegistryFollowsProcessingOrder | js/contentscript.js:231-246 | registry entry `l` is the resolved URL of a selected anchor, and entries follow the processing order |
| Scanner.OriginsResolve | js/contentscript.js:232-246 | the anchor behind each entry is a selected anchor that resolves to the entry |
| Scanner.OriginsOrdered | js/contentscript.js:232-246 | over an ordered worklist, the anchors behind the entries are ordered too |
| Scanner.SuffixCategoryEnding | js/contentscript.js:198-226 | a link in a suffix category ends in the last two characters of one of that category's suffixes |
| Scanner.Mp4IsVideoOnly | js/contentscript.js:198-226 | an `.mp4` link is selected as a video and by no audio, document or PDF selector |
| Scanner.PdfIsPdfOnly | js/contentscript.js:198-226 | a `.pdf` link is selected as a PDF and by no video, audio or document selector |
| Scanner.VideoAndPdfWorklist | js/contentscript.js:198-243 | a page with an `.mp4` link and a `.pdf` link is processed video first, then PDF |
| Scanner.FirstLinkStep | js/contentscript.js:34-63 | a new, accepted link handed to the video or PDF builder is registered with count+1 and gets its player or viewer |
| Scanner.VideoAndPdfPage | js/contentscript.js:195-248 | a page with one `.mp4` link and one `.pdf` link, both accepted and distinct, ends with a registry of exactly those two URLs, badge counts 1 and 2, a video player and a PDF viewer |

## Left out

- The messaging with the background page is not modelled as messaging (lines 5, 8-12, 56 and 189). Sending a message is recorded as a badge message in the session. The `getPreviews` listener only reads the registry length.
- `DOMPurify.sanitize` and the browser's URL resolution through `img.src` are not modelled. They are opaque `string -> string` functions in `Env`, and the model assumes nothing about them. The page protocol is a plain `Env` field.
- The tooltip library is not modelled. Each builder returns the options it would pass as a `Popup` value. The video `onShow` hook, which finds the popup's `<video>` and calls `play`, becomes the `autoplay` flag.
- The `log` and `console.log` output is not modelled, because it has no effect on the state.
- Characters are Dafny `char`s, not UTF-16 code units, so surrogate pairs count as one character. The archive regex's `.` still stops at the four JavaScript line terminators.
- Anchors are their `href` strings. An anchor without `href` cannot match an attribute selector, so it never reaches a builder.
- An exception is a `Fault`. It ends the whole pass, because it escapes `forEach` and `loadDOM` and nothing catches it.
- `js/settings.js` is not part of this model.
- GoogleDocs.ExtractId: its contract bounds the result only (never longer than the URL, and it occurs in the URL). The value for each URL shape is stated by the `…Link` lemmas and `TableAgrees` instead.
- Scanner.Run: its contract states the shape of the pass and the exception that ends it. It does not say that every handled anchor's builder succeeded. What the pass does to the registry and the badge is stated by `RunAppends`, `RunEntriesResolve` and `RunKeepsConsistent`, each proved by induction over the worklist.

=== FILE: archive.dfy ===
/** The Internet Archive rewrite at the start of `processURL`: a URL that
    mentions `//web.archive.org/` is matched against the regular expression
    `(?:web\.archive\.org\/web\/)(\d*)(\/)(.*)` and rebuilt with `id_` after
    the capture date, so that the archive serves the original file rather
    than its HTML replay page. When the regular expression does not match,
    `exec` returns null and reading capture 1 of it throws. */
module Archive {
  import opened Wrappers
  import opened JsString

  const Host := "web.archive.org/"
  /** Text whose presence triggers the rewrite: `//web.archive.org/`. */
  const Marker := "//" + Host
  /** The literal head of the regular expression: `web.archive.org/web/`. */
  const Head := Host + "web/"
  /** The start of every rewritten URL: `https://web.archive.org/web/`. */
  const RawPrefix := "https:" + Marker + "web/"
  /** Appended to the capture date in a rewritten URL. */
  const RawFlag := "id_/"

  /** `\d`: ASCII digits only. */
  predicate IsDigit(c: char) {
    '0' <= c <= '9'
  }

  /** The characters `.` refuses to match. */
  predicate IsLineTerminator(c: char) {
    c == '\n' || c == '\r' || c == '\U{2028}' || c == '\U{2029}'
  }

  predicate AllDigits(s: string) {
    forall i :: 0 <= i < |s| ==> IsDigit(s[i])
  }

  predicate NoLineTerminator(s: string) {
    forall i :: 0 <= i < |s| ==> !IsLineTerminator(s[i])
  }

  /** The groups of one match: where it starts, capture 1 and capture 3. */
  datatype Match = Match(index: nat, date: string, original: string)

  /** Reference semantics: the regular expression matches `s` at index `i`
      with capture 1 `date` and capture 3 `original`. Greedy `\d*` followed by
      `/` and greedy `.*` admit exactly one split at a given start. */
  ghost predicate MatchesAt(s: string, i: int, date: string, original: string) {
    var d0 := i + |Head|;
    var d1 := d0 + |date|;
    var e := d1 + 1 + |original|;
    && OccursAt(s, Head, i)
    && e <= |s|
    && s[d0..d1] == date
    && s[d1] == '/'
    && s[d1 + 1..e] == original
    && AllDigits(date)
    && NoLineTerminator(original)
    && (e == |s| || IsLineTerminator(s[e]))
  }

  /** The match `exec` reports: the one with the smallest start index. */
  ghost predicate FirstMatch(s: string, i: int, date: string, original: string) {
    && MatchesAt(s, i, date, original)
    && forall j, d, o :: 0 <= j < i ==> !MatchesAt(s, j, d, o)
  }

  /** End of the maximal digit run starting at `k`. */
  function DigitRunEnd(s: string, k: nat): (e: nat)
    requires k <= |s|
    ensures k <= e <= |s|
    ensures forall i :: k <= i < e ==> IsDigit(s[i])
    ensures e == |s| || !IsDigit(s[e])
    decreases |s| - k
  {
    if k == |s| || !IsDigit(s[k]) then k else DigitRunEnd(s, k + 1)
  }

  /** End of the maximal run without a line terminator starting at `k`. */
  function LineEnd(s: string, k: nat): (e: nat)
    requires k <= |s|
    ensures k <= e <= |s|
    ensures forall i :: k <= i < e ==> !IsLineTerminator(s[i])
    ensures e == |s| || IsLineTerminator(s[e])
    decreases |s| - k
  {
    if k == |s| || IsLineTerminator(s[k]) then k else LineEnd(s, k + 1)
  }

  /** The regular expression tried at one start index. */
  function MatchAt(s: string, i: nat): (m: Option<Match>)
    requires i <= |s|
    ensures m.Some? ==> m.value.index == i && MatchesAt(s, i, m.value.date, m.value.original)
    ensures forall d, o :: MatchesAt(s, i, d, o) ==> m == Some(Match(i, d, o))
  {
    if !OccursAt(s, Head, i) then None
    else
      var d0 := i + |Head|;
      var d1 := DigitRunEnd(s, d0);
      if d1 < |s| && s[d1] == '/' then
        var e := LineEnd(s, d1 + 1);
        MatchAtComplete(s, i, d1, e);
        Some(Match(i, s[d0..d1], s[d1 + 1..e]))
      else
        MatchAtComplete(s, i, d1, |s|);
        None
  }

  /** Any match at `i` ends its date where the digit run ends and its
      original URL where the line ends. */
  lemma MatchAtComplete(s: string, i: nat, d1: nat, e: nat)
    requires OccursAt(s, Head, i)
    requires d1 == DigitRunEnd(s, i + |Head|)
    requires d1 < |s| && s[d1] == '/' ==> e == LineEnd(s, d1 + 1)
    ensures forall d, o :: MatchesAt(s, i, d, o) ==>
              d1 < |s| && s[d1] == '/' && d == s[i + |Head|..d1] && o == s[d1 + 1..e]
  {
    var d0 := i + |Head|;
    forall d, o | MatchesAt(s, i, d, o)
      ensures d1 < |s| && s[d1] == '/' && d == s[d0..d1] && o == s[d1 + 1..e]
    {
      var m1 := d0 + |d|;
      var me := m1 + 1 + |o|;
      forall k | d0 <= k < m1 ensures IsDigit(s[k]) {
        assert s[k] == s[d0..m1][k - d0];
      }
      assert d1 == m1;
      forall k | m1 + 1 <= k < me ensures !IsLineTerminator(s[k]) {
        assert s[k] == s[m1 + 1..me][k - m1 - 1];
      }
      assert e == me;
    }
  }

  /** `exec` from index `k` on: the leftmost match at or after `k`. */
  function ExecFrom(s: string, k: nat): (m: Option<Match>)
    requires k <= |s|
    ensures m.Some? ==> k <= m.value.index && MatchesAt(s, m.value.index, m.value.date, m.value.original)
    ensures m.Some? ==> forall j, d, o :: k <= j < m.value.index ==> !MatchesAt(s, j, d, o)
    ensures m.None? ==> forall j, d, o :: k <= j ==> !MatchesAt(s, j, d, o)
    decreases |s| - k
  {
    match MatchAt(s, k)
    case Some(m) => Some(m)
    case None => if k == |s| then None else ExecFrom(s, k + 1)
  }

  /** `regex.exec(s)`: the first match, or null. */
  function Exec(s: string): (m: Option<Match>)
    ensures m.Some? ==> FirstMatch(s, m.value.index, m.value.date, m.value.original)
    ensures m.None? ==> forall j, d, o :: !MatchesAt(s, j, d, o)
  {
    ExecFrom(s, 0)
  }

  /** The rewrite at the head of `processURL`; `None` stands for the
      TypeError thrown when the marker is present but `exec` finds no match. */
  function Rewrite(url: string): (r: Option<string>)
    ensures !Occurs(url, Marker) ==> r == Some(url)
    ensures Occurs(url, Marker) && (forall i, d, o :: !MatchesAt(url, i, d, o)) ==> r.None?
    ensures forall i, d, o :: Occurs(url, Marker) && FirstMatch(url, i, d, o) ==>
              r == Some(RawPrefix + d + RawFlag + o)
  {
    if Includes(url, Marker) then
      match Exec(url)
      case None => None
      case Some(m) =>
        FirstMatchUnique(url, m);
        Some(RawPrefix + m.date + RawFlag + m.original)
    else Some(url)
  }

  /** There is only one first match. */
  lemma FirstMatchUnique(s: string, m: Match)
    requires FirstMatch(s, m.index, m.date, m.original)
    ensures forall i, d, o :: FirstMatch(s, i, d, o) ==> i == m.index && d == m.date && o == m.original
  {
    forall i, d, o | FirstMatch(s, i, d, o)
      ensures i == m.index && d == m.date && o == m.original
    {
      assert i == m.index;
      assert MatchAt(s, i) == Some(Match(i, d, o));
    }
  }

  /** Every URL that starts like a rewritten one carries the marker at index
      6 and the head of the regular expression at index 8. */
  lemma RawPrefixLandmarks(url: string)
    requires StartsWith(url, RawPrefix)
    ensures OccursAt(url, Marker, 6)
    ensures OccursAt(url, Head, 8)
  {
    assert RawPrefix == "https:" + Marker + "web/";
    assert RawPrefix == "https://" + Head;
    assert url[6..6 + |Marker|] == url[..|RawPrefix|][6..6 + |Marker|];
    assert url[8..8 + |Head|] == url[..|RawPrefix|][8..8 + |Head|];
  }

  /** A snapshot URL `https://web.archive.org/web/<date>/<original>` becomes
      `https://web.archive.org/web/<date>id_/<original>`. */
  lemma SnapshotRewrite(date: string, original: string)
    requires AllDigits(date)
    requires NoLineTerminator(original)
    ensures Rewrite(RawPrefix + date + "/" + original) == Some(RawPrefix + date + RawFlag + original)
  {
    var url := RawPrefix + date + "/" + original;
    assert url[..|RawPrefix|] == RawPrefix;
    RawPrefixLandmarks(url);
    assert url[|RawPrefix|..|RawPrefix| + |date|] == date;
    assert url[|RawPrefix| + |date| + 1..] == original;
    assert MatchesAt(url, 8, date, original);
    forall j, d, o | 0 <= j < 8
      ensures !MatchesAt(url, j, d, o)
    {
      if OccursAt(url, Head, j) {
        OccursAtChar(url, Head, j, 0);
      }
    }
    assert FirstMatch(url, 8, date, original);
  }

  /** An example snapshot link. */
  lemma SnapshotExample()
    ensures Rewrite(RawPrefix + "20200101000000" + "/" + "https://example.com/a.mp4")
         == Some(RawPrefix + "20200101000000" + RawFlag + "https://example.com/a.mp4")
  {
    assert AllDigits("20200101000000");
    assert NoLineTerminator("https://example.com/a.mp4");
    SnapshotRewrite("20200101000000", "https://example.com/a.mp4");
  }

  /** Inside the rewritten prefix the head of the regular expression occurs
      only at index 8. */
  lemma HeadInRawPrefix(url: string, i: int)
    requires StartsWith(url, RawPrefix)
    requires 0 <= i < |RawPrefix|
    requires OccursAt(url, Head, i)
    ensures i == 8
  {
    OccursAtChar(url, Head, i, 0);
    assert url[i] == url[..|RawPrefix|][i];
    if i == 24 {
      OccursAtChar(url, Head, i, 3);
    }
  }

  /** A date followed by `id_` is no date followed by `/`. */
  lemma RawDateDoesNotMatch(date: string, rest: string, d: string, o: string)
    requires AllDigits(date)
    ensures !MatchesAt(RawPrefix + date + RawFlag + rest, 8, d, o)
  {
    var url := RawPrefix + date + RawFlag + rest;
    var p := |RawPrefix|;
    assert url[p + |date|] == 'i';
    assert forall e :: p + |date| < e <= |url| ==> url[p..e][|date|] == 'i';
  }

  /** The rewrite is not idempotent: an already rewritten URL, whose date is
      followed by `id_` rather than `/` and whose original URL does not itself
      contain `web.archive.org/web/`, still mentions the marker but no longer
      matches, so running it through `processURL` again throws. */
  lemma RewrittenAgainFails(date: string, original: string)
    requires AllDigits(date)
    requires !Occurs(original, Head)
    ensures Rewrite(RawPrefix + date + RawFlag + original).None?
  {
    var head := RawPrefix + date + RawFlag;
    var url := head + original;
    var p := |RawPrefix|;
    assert url[..p] == RawPrefix;
    RawPrefixLandmarks(url);
    forall i, d, o | MatchesAt(url, i, d, o)
      ensures false
    {
      if i >= |head| {
        OccursAtShift(head, original, Head, i - |head|);
      } else if i < p {
        HeadInRawPrefix(url, i);
        RawDateDoesNotMatch(date, original, d, o);
      } else {
        OccursAtChar(url, Head, i, 0);
      }
    }
  }
}

=== FILE: google_docs.dfy ===
/** The file-identifier extraction of `previewGoogleDocs`. The URL shape is
    chosen by the first of `/edit`, `/open`, `/preview`, `/viewer` that the
    URL contains (forms are the fallback), and the identifier is cut out with
    `substring` between `lastIndexOf` offsets. */
module GoogleDocs {
  import opened Wrappers
  import opened JsString

  /** The identifier `previewGoogleDocs` embeds in the viewer URL. With
      JavaScript's `substring` it is defined for every URL string. */
  function ExtractId(url: string): (id: string)
    ensures |id| <= |url|
    ensures Occurs(url, id)
  {
    if IndexOf(url, EditMarker) >= 0 then
      Substring(url, LastIndexOf(url, DMarker) + 3, LastIndexOf(url, EditMarker))
    else if IndexOf(url, OpenMarker) >= 0 then
      SubstringFrom(url, LastIndexOf(url, OpenIdMarker) + 9)
    else if IndexOf(url, PreviewMarker) >= 0 then
      Substring(url, LastIndexOf(url, DocumentMarker) + 12, LastIndexOf(url, PreviewMarker))
    else if IndexOf(url, ViewerMarker) >= 0 then
      Substring(url, LastIndexOf(url, SrcidMarker) + 6, LastIndexOf(url, "&"))
    else
      Substring(url, LastIndexOf(url, DMarker) + 3, LastIndexOf(url, ViewformMarker))
  }

  const EditMarker := "/edit"
  const OpenMarker := "/open"
  const OpenIdMarker := OpenMarker + "?id="
  const PreviewMarker := "/preview"
  const ViewerMarker := "/viewer"
  const DMarker := "/d/"
  const DocumentMarker := "/document" + DMarker
  const SrcidMarker := "srcid="
  const ViewformMarker := "/viewform"

  /** The value an unrecognised link extracts to, which makes the builder
      drop the preview again. */
  const Sentinel := "ht"

  /** In `/d/<id><rest>`, where `rest` is a `/`, a character other than `d`
      and no further `/`, the only `/d/` is the leading one. */
  lemma DTailHasOneD(id: string, rest: string)
    requires '/' !in id && id != "d"
    requires |rest| >= 2 && rest[0] == '/' && rest[1] != 'd' && '/' !in rest[1..]
    ensures forall j :: 0 < j ==> !OccursAt("/d/" + id + rest, "/d/", j)
  {
    var t := "/d/" + id + rest;
    var r := 3 + |id|;
    assert forall k :: 3 <= k < r ==> t[k] == id[k - 3];
    assert forall k :: r < k < |t| ==> t[k] == rest[1..][k - r - 1];
    assert t[r] == '/' && t[r + 1] == rest[1];
    assert |id| == 1 && id[0] == 'd' ==> id == "d";
    forall j | 0 < j && OccursAt(t, "/d/", j) ensures false {
      OccursAtChar(t, "/d/", j, 0);
      OccursAtChar(t, "/d/", j, 1);
      OccursAtChar(t, "/d/", j, 2);
    }
  }

  /** `<head>/d/<id><rest>`: the last `/d/` is the one before `id`. */
  lemma DMarkerIsLast(head: string, id: string, rest: string)
    requires '/' !in id && id != "d"
    requires |rest| >= 2 && rest[0] == '/' && rest[1] != 'd' && '/' !in rest[1..]
    ensures LastIndexOf(head + "/d/" + id + rest, "/d/") == |head|
  {
    var t := "/d/" + id + rest;
    assert t[..3] == "/d/";
    DTailHasOneD(id, rest);
    assert head + "/d/" + id + rest == head + t;
    LastOccurrenceStartsTail(head, t, "/d/");
  }

  /** An edit link `<pre>/d/<id>/edit<query>`, the first shape tried: the
      identifier is the text between the last `/d/` and the last `/edit`. */
  lemma EditLink(pre: string, id: string, query: string)
    requires '/' !in id && id != "d"
    requires '/' !in query
    ensures ExtractId(pre + "/d/" + id + "/edit" + query) == id
  {
    var url := pre + "/d/" + id + "/edit" + query;
    var p := |pre|;
    var q := p + 3 + |id|;
    assert ("/edit" + query)[1..] == "edit" + query;
    DMarkerIsLast(pre, id, "/edit" + query);
    assert url == pre + "/d/" + id + ("/edit" + query);
    TrailingMarkerIsLast(pre + "/d/" + id, "/edit", query);
    assert url == (pre + "/d/" + id) + "/edit" + query;
    EditBranch(url);
    assert url[p + 3..q] == id;
  }

  /** A typical edit link. */
  lemma EditLinkExample()
    ensures ExtractId("https://docs.google.com/document" + "/d/" + "ABC123" + "/edit") == "ABC123"
  {
    assert '/' !in "ABC123";
    EditLink("https://docs.google.com/document", "ABC123", "");
    assert "https://docs.google.com/document" + "/d/" + "ABC123" + "/edit" + ""
        == "https://docs.google.com/document" + "/d/" + "ABC123" + "/edit";
  }

  /** The `/edit` branch is taken whenever the URL contains `/edit`. */
  lemma EditBranch(url: string)
    requires LastIndexOf(url, "/edit") >= 0
    ensures ExtractId(url) == Substring(url, LastIndexOf(url, "/d/") + 3, LastIndexOf(url, "/edit"))
  {
  }

  /** In `/document/d/<id><rest>`, with `rest` as in `DTailHasOneD`, the only
      `/document/d/` is the leading one. */
  lemma DocumentTailHasOneMarker(id: string, rest: string)
    requires '/' !in id
    requires |rest| >= 2 && rest[0] == '/' && rest[1] != 'd' && '/' !in rest[1..]
    ensures forall j :: 0 < j ==> !OccursAt(DocumentMarker + id + rest, DocumentMarker, j)
  {
    var m := DocumentMarker;
    var t := m + id + rest;
    var r := 12 + |id|;
    assert forall k :: 0 <= k < 12 ==> t[k] == m[k];
    assert forall k :: 12 <= k < r ==> t[k] == id[k - 12];
    assert forall k :: r < k < |t| ==> t[k] == rest[1..][k - r - 1];
    assert t[r] == '/' && t[r + 1] == rest[1];
    forall j | 0 < j && OccursAt(t, m, j) ensures false {
      OccursAtChar(t, m, j, 0);
      OccursAtChar(t, m, j, 1);
      OccursAtChar(t, m, j, 2);
      OccursAtChar(t, m, j, 9);
      OccursAtChar(t, m, j, 11);
    }
  }

  /** In `srcid=<rest>`, where `rest` does not contain `srcid=`, the only
      `srcid=` is the leading one. */
  lemma SrcidTailHasOneMarker(rest: string)
    requires !Occurs(rest, "srcid=")
    ensures forall j :: 0 < j ==> !OccursAt("srcid=" + rest, "srcid=", j)
  {
    var t := "srcid=" + rest;
    forall j | 0 < j && OccursAt(t, "srcid=", j) ensures false {
      if j < 6 {
        OccursAtChar(t, "srcid=", j, 0);
      } else {
        OccursAtShift("srcid=", rest, "srcid=", j - 6);
      }
    }
  }

  /** An open link `<pre>/open?id=<id>` without `/edit`: the identifier is
      everything after the last `/open?id=`. */
  lemma OpenLink(pre: string, id: string)
    requires '/' !in id
    requires !Includes(pre + OpenIdMarker + id, EditMarker)
    ensures ExtractId(pre + OpenIdMarker + id) == id
  {
    var url := pre + OpenIdMarker + id;
    TrailingMarkerIsLast(pre, OpenIdMarker, id);
    assert url == pre + OpenMarker + ("?id=" + id);
    assert url[|pre|..|pre| + |OpenMarker|] == OpenMarker;
    assert OccursAt(url, OpenMarker, |pre|);
    assert url[|pre| + 9..] == id;
  }

  /** A preview link `<pre>/document/d/<id>/preview<query>` without `/edit` or
      `/open`: the identifier lies between the last `/document/d/` and the last
      `/preview`. */
  lemma PreviewLink(pre: string, id: string, query: string)
    requires '/' !in id
    requires '/' !in query
    requires !Includes(pre + DocumentMarker + id + PreviewMarker + query, EditMarker)
    requires !Includes(pre + DocumentMarker + id + PreviewMarker + query, OpenMarker)
    ensures ExtractId(pre + DocumentMarker + id + PreviewMarker + query) == id
  {
    var url := pre + DocumentMarker + id + PreviewMarker + query;
    var t := DocumentMarker + id + (PreviewMarker + query);
    assert (PreviewMarker + query)[1..] == "preview" + query;
    DocumentTailHasOneMarker(id, PreviewMarker + query);
    assert t[..12] == DocumentMarker;
    assert url == pre + t;
    LastOccurrenceStartsTail(pre, t, DocumentMarker);
    var head := pre + DocumentMarker + id;
    assert url == head + PreviewMarker + query;
    TrailingMarkerIsLast(head, PreviewMarker, query);
    assert url[|head|..|head| + 8] == PreviewMarker;
    assert OccursAt(url, PreviewMarker, |head|);
    assert url[|pre| + 12..|head|] == id;
  }

  /** A viewer link `<pre>srcid=<id>&<query>` that reaches the `/viewer`
      branch: the identifier runs from the last `srcid=` to the LAST `&`, so
      any parameters between the two are kept in it. */
  lemma ViewerLink(pre: string, id: string, query: string)
    requires '&' !in query
    requires !Occurs(id + "&" + query, SrcidMarker)
    requires !Includes(pre + SrcidMarker + id + "&" + query, EditMarker)
    requires !Includes(pre + SrcidMarker + id + "&" + query, OpenMarker)
    requires !Includes(pre + SrcidMarker + id + "&" + query, PreviewMarker)
    requires Includes(pre + SrcidMarker + id + "&" + query, ViewerMarker)
    ensures ExtractId(pre + SrcidMarker + id + "&" + query) == id
  {
    var url := pre + SrcidMarker + id + "&" + query;
    var head := pre + SrcidMarker + id;
    Regroup(pre, SrcidMarker, id, "&", query);
    ViewerBranch(url);
    assert LastIndexOf(url, SrcidMarker) == |pre| by {
      var t := SrcidMarker + (id + "&" + query);
      SrcidTailHasOneMarker(id + "&" + query);
      assert t[..6] == SrcidMarker;
      LastOccurrenceStartsTail(pre, t, SrcidMarker);
    }
    assert LastIndexOf(url, "&") == |head| by {
      TrailingMarkerIsLast(head, "&", query);
    }
    assert url[|pre| + 6..|head|] == id;
  }

  /** The `/viewer` branch is taken when the URL contains `/viewer` but none
      of the earlier selectors. */
  lemma ViewerBranch(url: string)
    requires !Includes(url, EditMarker) && !Includes(url, OpenMarker) && !Includes(url, PreviewMarker)
    requires Includes(url, ViewerMarker)
    ensures ExtractId(url) == Substring(url, LastIndexOf(url, SrcidMarker) + 6, LastIndexOf(url, "&"))
  {
  }

  /** A form link `<pre>/d/<id>/viewform<query>` that reaches the fallback:
      the identifier lies between the last `/d/` and the last `/viewform`. */
  lemma FormLink(pre: string, id: string, query: string)
    requires '/' !in id && id != "d"
    requires '/' !in query
    requires !Includes(pre + DMarker + id + ViewformMarker + query, EditMarker)
    requires !Includes(pre + DMarker + id + ViewformMarker + query, OpenMarker)
    requires !Includes(pre + DMarker + id + ViewformMarker + query, PreviewMarker)
    requires !Includes(pre + DMarker + id + ViewformMarker + query, ViewerMarker)
    ensures ExtractId(pre + DMarker + id + ViewformMarker + query) == id
  {
    var url := pre + DMarker + id + ViewformMarker + query;
    assert (ViewformMarker + query)[1..] == "viewform" + query;
    DMarkerIsLast(pre, id, ViewformMarker + query);
    assert url == pre + DMarker + id + (ViewformMarker + query);
    var head := pre + DMarker + id;
    assert url == head + ViewformMarker + query;
    TrailingMarkerIsLast(head, ViewformMarker, query);
    assert url[|pre| + 3..|head|] == id;
  }

  /** A URL matching none of the shapes and holding neither `/d/` nor
      `/viewform` extracts to its first two characters: `substring(2, -1)`
      is `substring(0, 2)`. */
  lemma UnmatchedLink(url: string)
    requires |url| >= 2
    requires !Includes(url, EditMarker) && !Includes(url, OpenMarker)
    requires !Includes(url, PreviewMarker) && !Includes(url, ViewerMarker)
    requires !Includes(url, DMarker) && !Includes(url, ViewformMarker)
    ensures ExtractId(url) == url[..2]
  {
  }

  /** Every `http` or `https` URL containing none of `/edit`, `/open`,
      `/preview`, `/viewer`, `/d/` and `/viewform` extracts to the sentinel
      `ht`. */
  lemma UnmatchedHttpLinkGivesSentinel(url: string)
    requires StartsWith(url, "http")
    requires !Includes(url, EditMarker) && !Includes(url, OpenMarker)
    requires !Includes(url, PreviewMarker) && !Includes(url, ViewerMarker)
    requires !Includes(url, DMarker) && !Includes(url, ViewformMarker)
    ensures ExtractId(url) == Sentinel
  {
    UnmatchedLink(url);
    assert url[..2] == url[..4][..2];
  }

  /** A link such as `https://docs.google.com/document/d/<id>` with none of
      the suffixes the chain looks for reaches the forms fallback with no
      `/viewform`, so `substring(k + 3, -1)` yields everything up to and
      including the last `/d/`: a prefix of the URL, not the identifier, and
      not the sentinel either. */
  lemma BareDocumentLink(url: string)
    requires Includes(url, DMarker)
    requires !Includes(url, EditMarker) && !Includes(url, OpenMarker)
    requires !Includes(url, PreviewMarker) && !Includes(url, ViewerMarker)
    requires !Includes(url, ViewformMarker)
    ensures ExtractId(url) == url[..LastIndexOf(url, DMarker) + |DMarker|]
  {
  }

  /** One row of the shape table: the text that selects it, the marker the
      identifier follows, and the marker that ends it (`None`: the end of the
      URL). */
  datatype Rule = Rule(selector: string, start: string, end: Option<string>)

  /** The four shapes, in priority order, and the forms fallback. */
  const Rules: seq<Rule> := [
    Rule(EditMarker, DMarker, Some(EditMarker)),
    Rule(OpenMarker, OpenIdMarker, None),
    Rule(PreviewMarker, DocumentMarker, Some(PreviewMarker)),
    Rule(ViewerMarker, SrcidMarker, Some("&"))
  ]
  const FormRule := Rule("", DMarker, Some(ViewformMarker))

  /** The identifier one rule cuts out: it starts right after the start
      marker's last occurrence. */
  function Cut(rule: Rule, url: string): string {
    var from := LastIndexOf(url, rule.start) + |rule.start|;
    match rule.end
    case None => SubstringFrom(url, from)
    case Some(e) => Substring(url, from, LastIndexOf(url, e))
  }

  /** Table-driven extraction: the first rule from position `i` on whose
      selector the URL contains, else the forms fallback. */
  function ExtractByTable(rules: seq<Rule>, i: nat, url: string): string
    requires i <= |rules|
    decreases |rules| - i
  {
    if i == |rules| then Cut(FormRule, url)
    else if Includes(url, rules[i].selector) then Cut(rules[i], url)
    else ExtractByTable(rules, i + 1, url)
  }

  /** The hand-written offsets 3, 9, 12 and 6 are the lengths of the markers
      they skip, so the branch chain is the table read in order. */
  lemma {:induction false} TableAgrees(url: string)
    ensures ExtractId(url) == ExtractByTable(Rules, 0, url)
  {
    assert |DMarker| == 3;
    if !Includes(url, EditMarker) {
      TableFromOpen(url);
    }
  }

  /** Without `/edit`: the table from its `/open` row on. */
  lemma {:induction false} TableFromOpen(url: string)
    requires !Includes(url, EditMarker)
    ensures ExtractByTable(Rules, 1, url) == ExtractId(url)
  {
    assert |OpenIdMarker| == 9;
    if !Includes(url, OpenMarker) {
      TableFromPreview(url);
    }
  }

  /** Without `/edit` or `/open`: the table from its `/preview` row on. */
  lemma {:induction false} TableFromPreview(url: string)
    requires !Includes(url, EditMarker) && !Includes(url, OpenMarker)
    ensures ExtractByTable(Rules, 2, url) == ExtractId(url)
  {
    assert |DocumentMarker| == 12;
    if !Includes(url, PreviewMarker) {
      TableFromViewer(url);
    }
  }

  /** Only the `/viewer` row and the forms fallback remain. */
  lemma TableFromViewer(url: string)
    requires !Includes(url, EditMarker) && !Includes(url, OpenMarker) && !Includes(url, PreviewMarker)
    ensures ExtractByTable(Rules, 3, url) == ExtractId(url)
  {
    assert |SrcidMarker| == 6 && |DMarker| == 3;
    assert ExtractByTable(Rules, 4, url) == Cut(FormRule, url);
  }
}

=== FILE: js_array.dfy ===
/** The two `Array.prototype` operations applied to the rendered-previews
    registry: `indexOf` (strict equality, -1 when absent) and `splice(start, 1)`
    (a negative start counts from the end; a start at or past the end removes
    nothing). */
module JsArray {

  /** No element appears twice. */
  predicate NoDuplicates<T(==)>(a: seq<T>) {
    forall i, j :: 0 <= i < j < |a| ==> a[i] != a[j]
  }

  /** `a.indexOf(x)` searched from position `from`. */
  function IndexOfFrom<T(==)>(a: seq<T>, x: T, from: nat): (r: int)
    ensures r == -1 ==> forall i :: from <= i < |a| ==> a[i] != x
    ensures r != -1 ==> from <= r < |a| && a[r] == x
    ensures r != -1 ==> forall i :: from <= i < r ==> a[i] != x
    decreases |a| - from
  {
    if from >= |a| then -1
    else if a[from] == x then from
    else IndexOfFrom(a, x, from + 1)
  }

  /** `a.indexOf(x)`: the first position holding `x`, or -1. */
  function IndexOf<T(==)>(a: seq<T>, x: T): (r: int)
    ensures r == -1 <==> x !in a
    ensures r != -1 ==> 0 <= r < |a| && a[r] == x
    ensures r != -1 ==> forall i :: 0 <= i < r ==> a[i] != x
  {
    IndexOfFrom(a, x, 0)
  }

  /** The position `splice` starts at, per ECMAScript's relative-start rule. */
  function SpliceStart(len: nat, start: int): (k: nat)
    ensures k <= len
  {
    if start < 0 then (if len + start < 0 then 0 else len + start)
    else if start > len then len
    else start
  }

  /** The array left behind by `a.splice(start, 1)`. */
  function SpliceOne<T>(a: seq<T>, start: int): (r: seq<T>)
    ensures var k := SpliceStart(|a|, start);
      k < |a| ==> |r| == |a| - 1 && r[..k] == a[..k] && r[k..] == a[k + 1..]
    ensures SpliceStart(|a|, start) == |a| ==> r == a
  {
    var k := SpliceStart(|a|, start);
    if k < |a| then a[..k] + a[k + 1..] else a
  }

  /** Removing a just-appended, previously absent element by looking it up
      restores the array exactly. */
  lemma {:induction false} SpliceUndoesPush<T>(a: seq<T>, x: T)
    requires x !in a
    ensures SpliceOne(a + [x], IndexOf(a + [x], x)) == a
  {
    var b := a + [x];
    var k := IndexOf(b, x);
    assert b[|a|] == x;
    assert k == |a|;
    assert b[..k] == a;
  }

  /** `splice(-1, 1)` removes the last element: what the lookup would remove if
      it came back empty. The rollback in `previewGoogleDocs` never meets this
      case, because the URL it looks up was just pushed (`SpliceUndoesPush`). */
  lemma SpliceMissingRemovesLast<T>(a: seq<T>)
    requires |a| > 0
    ensures SpliceOne(a, -1) == a[..|a| - 1]
  {
  }

  /** Concatenation is associative. */
  lemma AppendAssoc<T>(a: seq<T>, b: seq<T>, c: seq<T>)
    ensures (a + b) + c == a + (b + c)
  {
  }
}

=== FILE: js_string.dfy ===
/** The JavaScript `String.prototype` operations the content script relies on,
    with their ECMAScript meaning: `indexOf` and `lastIndexOf` answer -1 when
    the needle is missing, `includes` is `indexOf(...) >= 0`, and `substring`
    clamps both bounds into [0, length] and swaps them when the start lies
    after the end. A JavaScript string is a sequence of UTF-16 code units;
    here a string is a sequence of Dafny `char`s, which are Unicode scalar
    values, so a character outside the Basic Multilingual Plane counts as one
    position here and as two in JavaScript. */
module JsString {

  /** `needle` occurs in `s` starting at index `i`. */
  predicate OccursAt(s: string, needle: string, i: int) {
    0 <= i && i + |needle| <= |s| && s[i..i + |needle|] == needle
  }

  /** Declarative containment: the reference definition for `Includes`. */
  ghost predicate Occurs(s: string, needle: string) {
    exists i :: OccursAt(s, needle, i)
  }

  /** `s.startsWith(prefix)`, also the meaning of the CSS `^=` attribute selector. */
  predicate StartsWith(s: string, prefix: string) {
    |prefix| <= |s| && s[..|prefix|] == prefix
  }

  /** `s.endsWith(suffix)`, also the meaning of the CSS `$=` attribute selector. */
  predicate EndsWith(s: string, suffix: string) {
    |suffix| <= |s| && s[|s| - |suffix|..] == suffix
  }

  /** The first occurrence of `needle` at or after `from`, or -1. */
  function IndexOfFrom(s: string, needle: string, from: nat): (r: int)
    ensures r == -1 || (from <= r && OccursAt(s, needle, r))
    ensures r == -1 ==> forall i :: from <= i ==> !OccursAt(s, needle, i)
    ensures r != -1 ==> forall i :: from <= i < r ==> !OccursAt(s, needle, i)
    decreases |s| - from
  {
    if from + |needle| > |s| then -1
    else if s[from..from + |needle|] == needle then from
    else IndexOfFrom(s, needle, from + 1)
  }

  /** `s.indexOf(needle)`: the leftmost occurrence, or -1 when there is none. */
  function IndexOf(s: string, needle: string): (r: int)
    ensures r == -1 <==> !Occurs(s, needle)
    ensures r != -1 ==> OccursAt(s, needle, r)
    ensures r != -1 ==> forall i :: 0 <= i < r ==> !OccursAt(s, needle, i)
  {
    IndexOfFrom(s, needle, 0)
  }

  /** `s.includes(needle)`. */
  function Includes(s: string, needle: string): (b: bool)
    ensures b <==> Occurs(s, needle)
  {
    IndexOf(s, needle) >= 0
  }

  /** The last occurrence of `needle` starting at or before `k`, or -1. */
  function LastIndexAtOrBefore(s: string, needle: string, k: int): (r: int)
    ensures r == -1 || (0 <= r <= k && OccursAt(s, needle, r))
    ensures forall i :: r < i <= k ==> !OccursAt(s, needle, i)
    decreases if k < 0 then 0 else k + 1
  {
    if k < 0 then -1
    else if OccursAt(s, needle, k) then k
    else LastIndexAtOrBefore(s, needle, k - 1)
  }

  /** `s.lastIndexOf(needle)`: the rightmost occurrence, or -1 when there is none. */
  function LastIndexOf(s: string, needle: string): (r: int)
    ensures r == -1 <==> !Occurs(s, needle)
    ensures r != -1 ==> OccursAt(s, needle, r)
    ensures forall i :: r < i ==> !OccursAt(s, needle, i)
  {
    LastIndexAtOrBefore(s, needle, |s| - |needle|)
  }

  /** ECMAScript's clamping of a `substring` argument into [0, len]. */
  function Clamp(x: int, len: nat): (r: nat)
    ensures r <= len
  {
    if x < 0 then 0 else if x > len then len else x
  }

  /** `s.substring(start, end)`: never fails, whatever the arguments. */
  function Substring(s: string, start: int, end: int): (r: string)
    ensures |r| <= |s|
    ensures Occurs(s, r)
    ensures 0 <= start <= end <= |s| ==> r == s[start..end]
    ensures 0 <= end <= start <= |s| ==> r == s[end..start]
  {
    var a := Clamp(start, |s|);
    var b := Clamp(end, |s|);
    var lo := if a <= b then a else b;
    var hi := if a <= b then b else a;
    assert OccursAt(s, s[lo..hi], lo);
    s[lo..hi]
  }

  /** `s.substring(start)`: the end defaults to the length of `s`. */
  function SubstringFrom(s: string, start: int): (r: string)
    ensures 0 <= start <= |s| ==> r == s[start..]
    ensures start < 0 ==> r == s
    ensures |s| < start ==> r == ""
  {
    Substring(s, start, |s|)
  }

  /** `substring` does not care which of its two arguments is the smaller. */
  lemma SubstringSymmetric(s: string, start: int, end: int)
    ensures Substring(s, start, end) == Substring(s, end, start)
  {
  }

  /** Out-of-range arguments behave as the nearest end of the string. */
  lemma SubstringClamps(s: string, start: int, end: int)
    ensures Substring(s, start, end) == Substring(s, Clamp(start, |s|), Clamp(end, |s|))
  {
  }

  /** An occurrence inside `t` is an occurrence inside `pre + t`, shifted by `|pre|`. */
  lemma OccursAtShift(pre: string, t: string, needle: string, j: int)
    requires 0 <= j
    ensures OccursAt(pre + t, needle, |pre| + j) <==> OccursAt(t, needle, j)
  {
    if 0 <= j && j + |needle| <= |t| {
      assert (pre + t)[|pre| + j..|pre| + j + |needle|] == t[j..j + |needle|];
    }
  }

  /** An occurrence pins every character it covers. */
  lemma OccursAtChar(s: string, needle: string, i: int, k: int)
    requires OccursAt(s, needle, i)
    requires 0 <= k < |needle|
    ensures s[i + k] == needle[k]
  {
    assert s[i..i + |needle|][k] == s[i + k];
  }

  /** The last occurrence of `needle` is at the start of `tail` when `tail`
      begins with it and holds it nowhere else. */
  lemma LastOccurrenceStartsTail(pre: string, tail: string, needle: string)
    requires OccursAt(tail, needle, 0)
    requires forall j :: 0 < j ==> !OccursAt(tail, needle, j)
    ensures LastIndexOf(pre + tail, needle) == |pre|
  {
    var s := pre + tail;
    OccursAtShift(pre, tail, needle, 0);
    forall j | |pre| < j ensures !OccursAt(s, needle, j) {
      OccursAtShift(pre, tail, needle, j - |pre|);
    }
  }

  /** A marker whose first character appears nowhere else in it or in the
      text after it occurs in `marker + rest` only at the start. */
  lemma LeadingMarkerOnly(marker: string, rest: string)
    requires |marker| > 0
    requires marker[0] !in marker[1..] && marker[0] !in rest
    ensures forall j :: 0 < j ==> !OccursAt(marker + rest, marker, j)
  {
    var t := marker + rest;
    assert forall k :: 0 < k < |marker| ==> t[k] == marker[1..][k - 1];
    assert forall k :: |marker| <= k < |t| ==> t[k] == rest[k - |marker|];
    forall j | 0 < j && OccursAt(t, marker, j) ensures false {
      OccursAtChar(t, marker, j, 0);
    }
  }

  /** Such a marker, followed by such text at the end of a URL, is the URL's
      last occurrence of the marker. */
  lemma TrailingMarkerIsLast(head: string, marker: string, rest: string)
    requires |marker| > 0
    requires marker[0] !in marker[1..] && marker[0] !in rest
    ensures LastIndexOf(head + marker + rest, marker) == |head|
  {
    var t := marker + rest;
    assert t[..|marker|] == marker;
    LeadingMarkerOnly(marker, rest);
    assert head + marker + rest == head + t;
    LastOccurrenceStartsTail(head, t, marker);
  }

  /** Concatenation regrouped: the text after `a` is the rest of the string. */
  lemma Regroup(a: string, b: string, c: string, d: string, e: string)
    ensures a + b + c + d + e == a + (b + (c + d + e))
    ensures a + b + c + d + e == (a + b + c) + d + e
  {
  }
}

=== FILE: normalizer.dfy ===
/** `processURL`: the archive rewrite, browser resolution, the protocol guard,
    and the rendered-previews registry with the badge count reported to the
    extension. The registry and the messages sent so far form a `Session`,
    threaded through the calls instead of living in a global array. */
module Normalizer {
  import opened Wrappers
  import opened JsString
  import JsArray
  import Protocol
  import Archive

  /** A JavaScript value the builders can receive from `processURL`: a
      string (a URL or the sentinel `'invalid'`) or `null`. */
  datatype Value = Str(text: string) | Null

  /** The exceptions the scan can raise: `exec` returning null while the
      archive marker is present, and a method call on `null`. */
  datatype Fault = ArchiveMismatch | NullDereference

  /** A message to the extension's badge: the reset sent at start-up, or the
      new number of rendered previews. */
  datatype BadgeMessage = ResetIcon | ChangeIcon(count: nat)

  /** The rendered-previews registry and every badge message sent so far. */
  datatype Session = Session(registry: seq<string>, badges: seq<BadgeMessage>)

  /** What the page supplies: its protocol, the HTML sanitizer applied to
      every `href`, and the browser's resolution of a URL through an image's
      `src` property. The last two are opaque and left uninterpreted. */
  datatype Env = Env(protocol: string, sanitize: string -> string, resolve: string -> string)

  /** Returned for a URL refused by the protocol guard. */
  const Invalid := "invalid"
  /** Wikimedia pages that describe a file rather than serve it. */
  const WikimediaFilePage := "commons.wikimedia.org/wiki/File:"

  /** The session at page load: nothing rendered, badge reset. */
  const Initial := Session([], [ResetIcon])

  /** The count the badge shows after the messages sent so far. */
  function BadgeShown(badges: seq<BadgeMessage>): nat {
    if |badges| == 0 then 0
    else match badges[|badges| - 1]
      case ResetIcon => 0
      case ChangeIcon(n) => n
  }

  /** The invariant of a page session: no URL is registered twice and the
      badge shows the registry's length. */
  predicate Consistent(s: Session) {
    JsArray.NoDuplicates(s.registry) && BadgeShown(s.badges) == |s.registry|
  }

  /** `processURL` returned a URL to preview (not `'invalid'`, not `null`). */
  predicate IsAccepted(v: Value) {
    v.Str? && v.text != Invalid
  }

  /** The URL `processURL` works with: the archive rewrite followed by the
      browser's resolution; `None` when the rewrite throws. */
  function Normalize(env: Env, url: string): (r: Option<string>)
    ensures r.None? <==> Archive.Rewrite(url).None?
    ensures !Occurs(url, Archive.Marker) ==> r == Some(env.resolve(url))
    // An archive snapshot link is resolved in its raw form.
    ensures forall i, d, o :: Occurs(url, Archive.Marker) && Archive.FirstMatch(url, i, d, o) ==>
              r == Some(env.resolve(Archive.RawPrefix + d + Archive.RawFlag + o))
  {
    match Archive.Rewrite(url)
    case None => None
    case Some(u) => Some(env.resolve(u))
  }

  /** The outcome of one `processURL` call: the returned value and the
      session after it. */
  datatype Processed = Processed(value: Value, session: Session)

  function ProcessURL(env: Env, s: Session, url: string): (r: Result<Processed, Fault>)
    // The only exception is the archive rewrite's.
    ensures r.Failure? <==> Normalize(env, url).None?
    ensures r.Failure? ==> r.error == ArchiveMismatch
    // Refused by the guard: the sentinel, nothing registered.
    ensures r.Success? ==>
              (r.value.value == Str(Invalid) <==> !Protocol.CheckProtocol(Normalize(env, url).value, env.protocol))
    // Already rendered or a Wikimedia file page: null, nothing registered.
    ensures r.Success? ==>
              (r.value.value == Null <==>
                 && Protocol.CheckProtocol(Normalize(env, url).value, env.protocol)
                 && (Normalize(env, url).value in s.registry || Occurs(Normalize(env, url).value, WikimediaFilePage)))
    ensures r.Success? && !IsAccepted(r.value.value) ==> r.value.session == s
    // Accepted: exactly the resolved URL is appended and reported.
    ensures r.Success? && IsAccepted(r.value.value) ==>
              && r.value.value.text == Normalize(env, url).value
              && r.value.value.text !in s.registry
              && r.value.session.registry == s.registry + [r.value.value.text]
              && r.value.session.badges == s.badges + [ChangeIcon(|s.registry| + 1)]
    ensures r.Success? && Consistent(s) ==> Consistent(r.value.session)
  {
    match Normalize(env, url)
    case None => Failure(ArchiveMismatch)
    case Some(u) =>
      if !Protocol.CheckProtocol(u, env.protocol) then Success(Processed(Str(Invalid), s))
      else if u in s.registry || Includes(u, WikimediaFilePage) then Success(Processed(Null, s))
      else
        Protocol.SentinelIsRejected(env.protocol);
        var registry := s.registry + [u];
        Success(Processed(Str(u), Session(registry, s.badges + [ChangeIcon(|registry|)])))
  }

  /** Registering the same link twice leaves one entry: the second call
      returns null and changes nothing. */
  lemma SecondCallIsDuplicate(env: Env, s: Session, url: string)
    requires ProcessURL(env, s, url).Success?
    requires IsAccepted(ProcessURL(env, s, url).value.value)
    ensures var s1 := ProcessURL(env, s, url).value.session;
            ProcessURL(env, s1, url) == Success(Processed(Null, s1))
  {
    var s1 := ProcessURL(env, s, url).value.session;
    var u := Normalize(env, url).value;
    assert s1.registry[|s.registry|] == u;
  }

  /** A Wikimedia file page is never registered, whatever the session. */
  lemma WikimediaPagesNeverRegistered(env: Env, s: Session, url: string, pre: string, post: string)
    requires Normalize(env, url) == Some(pre + WikimediaFilePage + post)
    ensures ProcessURL(env, s, url).Success?
    ensures ProcessURL(env, s, url).value.session == s
    ensures !IsAccepted(ProcessURL(env, s, url).value.value)
  {
    var u := pre + WikimediaFilePage + post;
    assert u[|pre|..|pre| + |WikimediaFilePage|] == WikimediaFilePage;
    assert OccursAt(u, WikimediaFilePage, |pre|);
  }

  /** Undoing an accepted call with `splice(indexOf(url), 1)` and reporting
      the new length restores the registry and the badge count. */
  lemma UndoRestoresRegistry(env: Env, s: Session, url: string)
    requires ProcessURL(env, s, url).Success?
    requires IsAccepted(ProcessURL(env, s, url).value.value)
    ensures var p := ProcessURL(env, s, url).value;
            var registry := p.session.registry;
            JsArray.SpliceOne(registry, JsArray.IndexOf(registry, p.value.text)) == s.registry
  {
    var p := ProcessURL(env, s, url).value;
    JsArray.SpliceUndoesPush(s.registry, p.value.text);
  }
}

=== FILE: previews.dfy ===
/** The five preview builders. Each sanitizes an anchor's `href`, runs it
    through `processURL`, and either attaches the error popup (only when the
    result is the string `'invalid'`) or builds its category's content. A
    popup is returned as a descriptor instead of being handed to the tooltip
    library. */
module Previews {
  import opened Wrappers
  import opened JsString
  import JsArray
  import opened Normalizer
  import GoogleDocs

  /** What the tooltip library is asked to attach. */
  datatype Popup = Popup(
    content: string,
    interactive: bool,
    arrow: bool,
    theme: Option<string>,
    showDelay: nat,
    hideDelay: nat,
    autoplay: bool)  // the video `onShow` hook starts playback

  const ErrorMessage := "Peek cannot preview this link because it is served over an insecure connection."

  /** The mixed-content popup: default theme, not interactive. */
  const ErrorPopup := Popup(ErrorMessage, false, true, None, 500, 500, false)

  /** A content popup in the extension's own theme. Its options differ from the error
      popup's in their fields (interactive, themed), whatever the content. */
  function ContentPopup(content: string, autoplay: bool): (p: Popup)
    ensures p != ErrorPopup
  {
    Popup(content, true, true, Some("peek"), 500, 500, autoplay)
  }

  /** JavaScript string concatenation of a value: `null` renders as "null". */
  function Render(v: Value): string {
    match v
    case Str(t) => t
    case Null => "null"
  }

  const VideoOpen := "<video controls muted controlsList=\"nodownload nofullscreen noremoteplayback\"><source src=\""
  const VideoClose := "\"></video>"
  const AudioOpen := "<audio controls controlsList=\"nodownload nofullscreen noremoteplayback\"><source src=\""
  /** The audio player is closed with `</video>`, as `previewAudio` writes it. */
  const AudioClose := "\"></video>"
  const PdfOpen := "<embed src=\""
  const PdfClose := "#toolbar=0\">"
  const DocsOpen := "<embed src=\"https://docs.google.com/viewer?srcid="
  const DocsClose := "&pid=explorer&efh=false&a=v&chrome=false&embedded=true\">"

  /** The `src` of a player or viewer string: the text between its fixed
      opening and closing parts. */
  function EmbeddedSource(content: string, open: string, close: string): (r: Option<string>)
    ensures r.Some? ==> content == open + r.value + close
  {
    if |open| + |close| <= |content| && content[..|open|] == open && content[|content| - |close|..] == close
    then
      var src := content[|open|..|content| - |close|];
      assert content == content[..|open|] + src + content[|content| - |close|..];
      Some(src)
    else None
  }

  /** Reading the `src` back out of a built string gives the URL put in. */
  lemma EmbedRoundTrip(open: string, src: string, close: string)
    ensures EmbeddedSource(open + src + close, open, close) == Some(src)
  {
    var c := open + src + close;
    assert c[..|open|] == open;
    assert c[|c| - |close|..] == close;
    assert c[|open|..|c| - |close|] == src;
  }

  /** The result of one builder: the popup attached (if any) and the session
      after it. */
  datatype Built = Built(popup: Option<Popup>, session: Session)

  /** `previewVideo`: a muted player that starts when the popup shows. A
      `null` from `processURL` is not filtered and yields `src="null"`. */
  function PreviewVideo(env: Env, s: Session, href: string): (r: Result<Built, Fault>)
    ensures var p := ProcessURL(env, s, env.sanitize(href));
            && (r.Failure? <==> p.Failure?)
            && (p.Failure? ==> r == Failure(p.error))
            && (r.Success? ==> r.value.session == p.value.session && r.value.popup.Some?)
            && (r.Success? ==> (r.value.popup == Some(ErrorPopup) <==> p.value.value == Str(Invalid)))
            && (r.Success? && p.value.value != Str(Invalid) ==>
                  r.value.popup == Some(ContentPopup(VideoOpen + Render(p.value.value) + VideoClose, true)))
  {
    match ProcessURL(env, s, env.sanitize(href))
    case Failure(e) => Failure(e)
    case Success(p) =>
      if p.value == Str(Invalid) then Success(Built(Some(ErrorPopup), p.session))
      else Success(Built(Some(ContentPopup(VideoOpen + Render(p.value) + VideoClose, true)), p.session))
  }

  /** `previewAudio`: a player without autoplay; `null` is not filtered. */
  function PreviewAudio(env: Env, s: Session, href: string): (r: Result<Built, Fault>)
    ensures var p := ProcessURL(env, s, env.sanitize(href));
            && (r.Failure? <==> p.Failure?)
            && (p.Failure? ==> r == Failure(p.error))
            && (r.Success? ==> r.value.session == p.value.session && r.value.popup.Some?)
            && (r.Success? ==> (r.value.popup == Some(ErrorPopup) <==> p.value.value == Str(Invalid)))
            && (r.Success? && p.value.value != Str(Invalid) ==>
                  r.value.popup == Some(ContentPopup(AudioOpen + Render(p.value.value) + AudioClose, false)))
  {
    match ProcessURL(env, s, env.sanitize(href))
    case Failure(e) => Failure(e)
    case Success(p) =>
      if p.value == Str(Invalid) then Success(Built(Some(ErrorPopup), p.session))
      else Success(Built(Some(ContentPopup(AudioOpen + Render(p.value) + AudioClose, false)), p.session))
  }

  /** `previewDocument`: no content yet, but the link is still registered and
      a refused link still gets the error popup. */
  function PreviewDocument(env: Env, s: Session, href: string): (r: Result<Built, Fault>)
    ensures var p := ProcessURL(env, s, env.sanitize(href));
            && (r.Failure? <==> p.Failure?)
            && (p.Failure? ==> r == Failure(p.error))
            && (r.Success? ==> r.value.session == p.value.session)
            && (r.Success? ==> (r.value.popup.Some? <==> p.value.value == Str(Invalid)))
            && (r.Success? && r.value.popup.Some? ==> r.value.popup.value == ErrorPopup)
  {
    match ProcessURL(env, s, env.sanitize(href))
    case Failure(e) => Failure(e)
    case Success(p) =>
      if p.value == Str(Invalid) then Success(Built(Some(ErrorPopup), p.session))
      else Success(Built(None, p.session))
  }

  /** `previewPDF`: the browser's viewer with its toolbar hidden. */
  function PreviewPdf(env: Env, s: Session, href: string): (r: Result<Built, Fault>)
    ensures var p := ProcessURL(env, s, env.sanitize(href));
            && (r.Failure? <==> p.Failure?)
            && (p.Failure? ==> r == Failure(p.error))
            && (r.Success? ==> r.value.session == p.value.session && r.value.popup.Some?)
            && (r.Success? ==> (r.value.popup == Some(ErrorPopup) <==> p.value.value == Str(Invalid)))
            && (r.Success? && p.value.value != Str(Invalid) ==>
                  r.value.popup == Some(ContentPopup(PdfOpen + Render(p.value.value) + PdfClose, false)))
  {
    match ProcessURL(env, s, env.sanitize(href))
    case Failure(e) => Failure(e)
    case Success(p) =>
      if p.value == Str(Invalid) then Success(Built(Some(ErrorPopup), p.session))
      else Success(Built(Some(ContentPopup(PdfOpen + Render(p.value) + PdfClose, false)), p.session))
  }

  /** `previewGoogleDocs`: the Google viewer around the extracted identifier.
      A `null` from `processURL` reaches `url.indexOf` and throws; an
      identifier equal to the sentinel takes the URL back out of the registry
      and reports the smaller count. */
  function PreviewGoogleDocs(env: Env, s: Session, href: string): (r: Result<Built, Fault>)
    ensures var p := ProcessURL(env, s, env.sanitize(href));
            && (r.Failure? <==> p.Failure? || p.value.value == Null)
            && (p.Failure? ==> r == Failure(p.error))
            && (p.Success? && p.value.value == Null ==> r == Failure(NullDereference))
            && (r.Success? && p.value.value == Str(Invalid) ==>
                  r.value == Built(Some(ErrorPopup), s))
            && (r.Success? && IsAccepted(p.value.value) && GoogleDocs.ExtractId(p.value.value.text) != GoogleDocs.Sentinel ==>
                  && r.value.session == p.value.session
                  && r.value.popup == Some(ContentPopup(DocsOpen + GoogleDocs.ExtractId(p.value.value.text) + DocsClose, false)))
            && (r.Success? && IsAccepted(p.value.value) && GoogleDocs.ExtractId(p.value.value.text) == GoogleDocs.Sentinel ==>
                  && r.value.popup.None?
                  && r.value.session.registry == s.registry
                  && r.value.session.badges == s.badges + [ChangeIcon(|s.registry| + 1), ChangeIcon(|s.registry|)])
            && (r.Success? && Consistent(s) ==> Consistent(r.value.session))
  {
    match ProcessURL(env, s, env.sanitize(href))
    case Failure(e) => Failure(e)
    case Success(p) =>
      if p.value == Str(Invalid) then Success(Built(Some(ErrorPopup), p.session))
      else match p.value
        case Null => Failure(NullDereference)
        case Str(url) =>
          var id := GoogleDocs.ExtractId(url);
          if id != GoogleDocs.Sentinel then
            Success(Built(Some(ContentPopup(DocsOpen + id + DocsClose, false)), p.session))
          else
            var registry := JsArray.SpliceOne(p.session.registry, JsArray.IndexOf(p.session.registry, url));
            JsArray.SpliceUndoesPush(s.registry, url);
            Success(Built(None, Session(registry, p.session.badges + [ChangeIcon(|registry|)])))
  }

  /** The video player built for an accepted link plays exactly the URL that
      was just registered. */
  lemma VideoPlaysRegisteredUrl(env: Env, s: Session, href: string)
    requires Normalize(env, env.sanitize(href)).Some?
    requires var u := Normalize(env, env.sanitize(href)).value;
             Protocol.CheckProtocol(u, env.protocol) && u !in s.registry && !Occurs(u, WikimediaFilePage)
    ensures PreviewVideo(env, s, href).Success?
    ensures var b := PreviewVideo(env, s, href).value;
            && |b.session.registry| == |s.registry| + 1
            && b.popup.Some?
            && EmbeddedSource(b.popup.value.content, VideoOpen, VideoClose) == Some(b.session.registry[|s.registry|])
  {
    var p := ProcessURL(env, s, env.sanitize(href)).value;
    EmbedRoundTrip(VideoOpen, p.value.text, VideoClose);
  }

  /** An anchor to an already registered video is not filtered out: it still
      gets a player, whose source is the string "null", and nothing else
      changes. */
  lemma DuplicateVideoPlaysNull(env: Env, s: Session, again: string)
    requires Normalize(env, env.sanitize(again)).Some?
    requires var u := Normalize(env, env.sanitize(again)).value;
             Protocol.CheckProtocol(u, env.protocol) && u in s.registry
    ensures PreviewVideo(env, s, again) == Success(Built(Some(ContentPopup(VideoOpen + "null" + VideoClose, true)), s))
  {
  }

  /** An anchor to an already registered Google document throws, which ends
      the page scan. */
  lemma DuplicateGoogleDocsThrows(env: Env, s: Session, again: string)
    requires Normalize(env, env.sanitize(again)).Some?
    requires var u := Normalize(env, env.sanitize(again)).value;
             Protocol.CheckProtocol(u, env.protocol) && u in s.registry
    ensures PreviewGoogleDocs(env, s, again) == Failure(NullDereference)
  {
  }
}

=== FILE: protocol.dfy ===
/** The mixed-content guard `checkProtocol`: whether a resolved URL may be
    embedded in a page served over `pageProtocol` (the page's
    `window.location.protocol`, passed in). */
module Protocol {
  import opened JsString

  const HttpsMarker := "https:"
  const HttpMarker := "http:"

  /** True when the URL mentions `https:`, or mentions `http:` on a page itself
      served over `http:`. The markers are looked for anywhere in the URL, not
      only in its scheme. */
  function CheckProtocol(url: string, pageProtocol: string): (ok: bool)
    ensures Occurs(url, HttpsMarker) ==> ok
    ensures !Occurs(url, HttpsMarker) && Occurs(url, HttpMarker) ==> (ok <==> pageProtocol == "http:")
    ensures !Occurs(url, HttpsMarker) && !Occurs(url, HttpMarker) ==> !ok
  {
    if Includes(url, HttpsMarker) then true
    else if Includes(url, HttpMarker) && pageProtocol == "http:" then true
    else false
  }

  /** An `https://` URL is accepted on every page. */
  lemma HttpsSchemeAccepted(url: string, pageProtocol: string)
    requires StartsWith(url, "https://")
    ensures CheckProtocol(url, pageProtocol)
  {
    assert url[..6] == url[..8][..6];
    assert OccursAt(url, HttpsMarker, 0);
  }

  /** An `http://` URL that never mentions `https:` is accepted on an `http:`
      page and rejected on an `https:` page. */
  lemma HttpSchemeNeedsHttpPage(url: string, pageProtocol: string)
    requires StartsWith(url, "http://")
    requires !Includes(url, HttpsMarker)
    ensures CheckProtocol(url, pageProtocol) <==> pageProtocol == "http:"
  {
    assert url[..5] == url[..7][..5];
    assert OccursAt(url, HttpMarker, 0);
  }

  /** The guard is a substring test: a URL of any scheme whose text merely
      contains `https:` (in a query string, say) passes on every page. */
  lemma MentionOfHttpsSuffices(pre: string, post: string, pageProtocol: string)
    ensures CheckProtocol(pre + HttpsMarker + post, pageProtocol)
  {
    var url := pre + HttpsMarker + post;
    assert url[|pre|..|pre| + |HttpsMarker|] == HttpsMarker;
    assert OccursAt(url, HttpsMarker, |pre|);
  }

  /** The sentinel `'invalid'` mentions neither scheme, so no URL the guard
      accepts can be confused with it. */
  lemma {:induction false} SentinelIsRejected(pageProtocol: string)
    ensures !Occurs("invalid", HttpsMarker) && !Occurs("invalid", HttpMarker)
    ensures !CheckProtocol("invalid", pageProtocol)
  {
    forall i | OccursAt("invalid", HttpMarker, i)
      ensures false
    {
      OccursAtChar("invalid", HttpMarker, i, 0);
    }
    forall i | OccursAt("invalid", HttpsMarker, i)
      ensures false
    {
      OccursAtChar("invalid", HttpsMarker, i, 0);
    }
  }
}

=== FILE: scanner.dfy ===
/** `loadDOM`: the selector lists that sort anchors into five categories, the
    order in which the categories are processed, and the single pass that
    hands each matching anchor to its builder. A document is the sequence of
    its anchors' `href` attributes in document order; an exception from a
    builder ends the pass. */
module Scanner {
  import opened Wrappers
  import opened JsString
  import opened Normalizer
  import opened Previews
  import JsArray

  datatype Category = Video | Audio | Document | Pdf | Google

  /** A CSS attribute selector on `href`: `$=` (suffix) or `^=` (prefix),
      both case-sensitive. */
  datatype Selector = Suffix(text: string) | Prefix(text: string)

  predicate Matches(sel: Selector, href: string) {
    match sel
    case Suffix(t) => EndsWith(href, t)
    case Prefix(t) => StartsWith(href, t)
  }

  function Selectors(c: Category): seq<Selector> {
    match c
    case Video => [Suffix(".webm"), Suffix(".mp4"), Suffix(".m4v"), Suffix(".ogg"), Suffix(".ogv")]
    case Audio => [Suffix(".mp3"), Suffix(".m4a"), Suffix(".oga"), Suffix(".wav")]
    case Document => [Suffix(".doc"), Suffix(".docx"), Suffix(".xls"), Suffix(".xlsx"),
                      Suffix(".ppt"), Suffix(".pptx"), Suffix(".rtf")]
    case Pdf => [Suffix(".pdf")]
    case Google => [Prefix("https://docs.google.com/d"), Prefix("https://drive.google.com/open")]
  }

  /** The anchor is selected by the category's comma-joined selector list. */
  predicate InCategory(c: Category, href: string) {
    exists k | 0 <= k < |Selectors(c)| :: Matches(Selectors(c)[k], href)
  }

  /** The position of a category in the processing order. */
  function Rank(c: Category): nat {
    match c
    case Video => 0
    case Audio => 1
    case Document => 2
    case Pdf => 3
    case Google => 4
  }

  const Order := [Video, Audio, Document, Pdf, Google]

  /** One anchor handed to one builder. */
  datatype Item = Item(category: Category, index: nat)

  /** Processing order: by category first, then by document position. */
  predicate Before(a: Item, b: Item) {
    Rank(a.category) < Rank(b.category) || (a.category == b.category && a.index < b.index)
  }

  predicate Ordered(items: seq<Item>) {
    forall k, l :: 0 <= k < l < |items| ==> Before(items[k], items[l])
  }

  /** `document.querySelectorAll` for one category, from anchor `from` on:
      the matching anchors in document order, each once. */
  function Selected(c: Category, doc: seq<string>, from: nat): (r: seq<Item>)
    requires from <= |doc|
    ensures forall k :: 0 <= k < |r| ==> r[k].category == c && from <= r[k].index < |doc| && InCategory(c, doc[r[k].index])
    ensures forall i :: from <= i < |doc| && InCategory(c, doc[i]) ==> Item(c, i) in r
    ensures Ordered(r)
    decreases |doc| - from
  {
    if from == |doc| then []
    else if InCategory(c, doc[from]) then [Item(c, from)] + Selected(c, doc, from + 1)
    else Selected(c, doc, from + 1)
  }

  /** The selected anchors of each category in `cats`, category by category. */
  function WorkFor(cats: seq<Category>, doc: seq<string>): (r: seq<Item>)
    ensures forall k :: 0 <= k < |r| ==>
              r[k].category in cats && r[k].index < |doc| && InCategory(r[k].category, doc[r[k].index])
  {
    if |cats| == 0 then [] else Selected(cats[0], doc, 0) + WorkFor(cats[1..], doc)
  }

  /** Every anchor handed to a builder during `loadDOM`, in the order the
      builders run. */
  function Worklist(doc: seq<string>): seq<Item> {
    WorkFor(Order, doc)
  }

  predicate InDocument(work: seq<Item>, doc: seq<string>) {
    forall k :: 0 <= k < |work| ==> work[k].index < |doc|
  }

  predicate StrictlyRanked(cats: seq<Category>) {
    forall k, l :: 0 <= k < l < |cats| ==> Rank(cats[k]) < Rank(cats[l])
  }

  /** An item is handed to a builder exactly when its category is processed
      and its anchor is selected by that category. */
  lemma {:induction false} WorkForMember(cats: seq<Category>, doc: seq<string>, it: Item)
    ensures it in WorkFor(cats, doc) <==>
              it.category in cats && it.index < |doc| && InCategory(it.category, doc[it.index])
    decreases |cats|
  {
    if |cats| > 0 {
      WorkForMember(cats[1..], doc, it);
      if it.category in cats && it.category != cats[0] {
        assert it.category in cats[1..];
      }
    }
  }

  /** With the categories in rank order, the items come ordered by category
      and then by document position. */
  lemma {:induction false} WorkForOrdered(cats: seq<Category>, doc: seq<string>)
    requires StrictlyRanked(cats)
    ensures Ordered(WorkFor(cats, doc))
    decreases |cats|
  {
    if |cats| > 0 {
      var rest := WorkFor(cats[1..], doc);
      WorkForOrdered(cats[1..], doc);
      forall l | 0 <= l < |rest| ensures Rank(cats[0]) < Rank(rest[l].category) {
        var m :| 0 <= m < |cats[1..]| && cats[1..][m] == rest[l].category;
        assert cats[m + 1] == rest[l].category;
      }
      OrderedAppend(Selected(cats[0], doc, 0), rest);
    }
  }

  /** The worklist holds exactly the selected anchors, ordered by category
      and then by document position. */
  lemma WorklistShape(doc: seq<string>)
    ensures InDocument(Worklist(doc), doc)
    ensures forall it :: it in Worklist(doc) <==> it.index < |doc| && InCategory(it.category, doc[it.index])
    ensures Ordered(Worklist(doc))
  {
    forall it ensures it in Worklist(doc) <==> it.index < |doc| && InCategory(it.category, doc[it.index]) {
      WorkForMember(Order, doc, it);
      assert Order[Rank(it.category)] == it.category;
    }
    WorkForOrdered(Order, doc);
  }

  /** A category's items followed by items of later categories stay ordered. */
  lemma OrderedAppend(x: seq<Item>, y: seq<Item>)
    requires Ordered(x) && Ordered(y)
    requires exists c :: (forall k :: 0 <= k < |x| ==> x[k].category == c) &&
                         (forall l :: 0 <= l < |y| ==> Rank(c) < Rank(y[l].category))
    ensures Ordered(x + y)
  {
  }

  /** One builder, chosen by category. */
  function Preview(env: Env, c: Category, s: Session, href: string): (r: Result<Built, Fault>)
    ensures r.Success? ==>
              || r.value.session.registry == s.registry
              || (&& |r.value.session.registry| == |s.registry| + 1
                  && r.value.session.registry == s.registry + [r.value.session.registry[|s.registry|]]
                  && Normalize(env, env.sanitize(href)) == Some(r.value.session.registry[|s.registry|]))
    ensures r.Success? && Consistent(s) ==> Consistent(r.value.session)
  {
    match c
    case Video => PreviewVideo(env, s, href)
    case Audio => PreviewAudio(env, s, href)
    case Document => PreviewDocument(env, s, href)
    case Pdf => PreviewPdf(env, s, href)
    case Google => PreviewGoogleDocs(env, s, href)
  }

  /** What happened to one anchor: its popup and the URL it left in the
      registry, if any. */
  datatype Handled = Handled(item: Item, popup: Option<Popup>, added: Option<string>)

  /** The registry entries a run of handled anchors leaves, in order. */
  function Added(h: seq<Handled>): seq<string> {
    if |h| == 0 then []
    else (if h[0].added.Some? then [h[0].added.value] else []) + Added(h[1..])
  }

  /** The entries of one more handled anchor come first. */
  lemma AddedCons(x: Handled, t: seq<Handled>)
    ensures Added([x] + t) == (if x.added.Some? then [x.added.value] else []) + Added(t)
  {
    assert ([x] + t)[1..] == t;
  }

  /** The anchors behind those entries. */
  function Origins(h: seq<Handled>): (r: seq<Item>)
    ensures |r| == |Added(h)|
  {
    if |h| == 0 then []
    else (if h[0].added.Some? then [h[0].item] else []) + Origins(h[1..])
  }

  /** The state after a pass: the session, every anchor handled, and the
      exception that ended the pass early, if one did. */
  datatype ScanResult = ScanResult(session: Session, handled: seq<Handled>, fault: Option<Fault>)

  /** The registry entry a builder call added, if it added one. */
  function NewEntry(before: Session, after: Session): Option<string> {
    if |after.registry| > |before.registry| then Some(after.registry[|before.registry|]) else None
  }

  /** The builders run over `work` in order; the first exception stops them. */
  function Run(env: Env, doc: seq<string>, work: seq<Item>, s: Session): (r: ScanResult)
    requires InDocument(work, doc)
    ensures |r.handled| <= |work|
    ensures forall k :: 0 <= k < |r.handled| ==> r.handled[k].item == work[k]
    ensures r.fault.None? <==> |r.handled| == |work|
    // A pass ends early only at an anchor whose builder throws, with its exception.
    ensures r.fault.Some? ==>
              Preview(env, work[|r.handled|].category, r.session, doc[work[|r.handled|].index]) == Failure(r.fault.value)
    decreases |work|
  {
    if |work| == 0 then ScanResult(s, [], None)
    else
      var item := work[0];
      match Preview(env, item.category, s, doc[item.index])
      case Failure(e) => ScanResult(s, [], Some(e))
      case Success(b) =>
        var rest := Run(env, doc, work[1..], b.session);
        var x := Handled(item, b.popup, NewEntry(s, b.session));
        assert forall k :: 0 < k <= |rest.handled| ==> ([x] + rest.handled)[k] == rest.handled[k - 1];
        assert rest.fault.Some? ==> work[1..][|rest.handled|] == work[|rest.handled| + 1];
        ScanResult(rest.session, [x] + rest.handled, rest.fault)
  }

  /** A pass that does not throw at its first anchor: that anchor's record
      followed by the rest of the pass. */
  lemma RunCons(env: Env, doc: seq<string>, work: seq<Item>, s: Session, b: Built)
    requires InDocument(work, doc) && |work| > 0
    requires Preview(env, work[0].category, s, doc[work[0].index]) == Success(b)
    ensures var rest := Run(env, doc, work[1..], b.session);
            Run(env, doc, work, s) ==
              ScanResult(rest.session, [Handled(work[0], b.popup, NewEntry(s, b.session))] + rest.handled, rest.fault)
  {
  }

  /** A pass only appends to the registry, and what it appends is what its
      handled anchors report. */
  lemma {:induction false} RunAppends(env: Env, doc: seq<string>, work: seq<Item>, s: Session)
    requires InDocument(work, doc)
    ensures Run(env, doc, work, s).session.registry == s.registry + Added(Run(env, doc, work, s).handled)
    decreases |work|
  {
    if |work| > 0 {
      var p := Preview(env, work[0].category, s, doc[work[0].index]);
      if p.Success? {
        var b := p.value;
        var rest := Run(env, doc, work[1..], b.session);
        RunCons(env, doc, work, s, b);
        RunAppends(env, doc, work[1..], b.session);
        var x := Handled(work[0], b.popup, NewEntry(s, b.session));
        var gained := if x.added.Some? then [x.added.value] else [];
        assert b.session.registry == s.registry + gained;
        AddedCons(x, rest.handled);
        assert rest.session.registry == s.registry + (gained + Added(rest.handled)) by {
          JsArray.AppendAssoc(s.registry, gained, Added(rest.handled));
        }
      }
    }
  }

  /** Every entry a pass adds is the resolved URL of the anchor that added
      it. */
  lemma {:induction false} RunEntriesResolve(env: Env, doc: seq<string>, work: seq<Item>, s: Session)
    requires InDocument(work, doc)
    ensures var r := Run(env, doc, work, s);
            forall k :: 0 <= k < |r.handled| && r.handled[k].added.Some? ==>
              Normalize(env, env.sanitize(doc[work[k].index])) == r.handled[k].added
    decreases |work|
  {
    if |work| > 0 {
      var p := Preview(env, work[0].category, s, doc[work[0].index]);
      if p.Success? {
        var b := p.value;
        var rest := Run(env, doc, work[1..], b.session);
        RunCons(env, doc, work, s, b);
        RunEntriesResolve(env, doc, work[1..], b.session);
        var x := Handled(work[0], b.popup, NewEntry(s, b.session));
        assert forall k :: 0 < k <= |rest.handled| ==> ([x] + rest.handled)[k] == rest.handled[k - 1];
        assert forall k :: 0 < k <= |rest.handled| ==> work[k] == work[1..][k - 1];
      }
    }
  }

  /** A pass keeps a consistent session consistent. */
  lemma {:induction false} RunKeepsConsistent(env: Env, doc: seq<string>, work: seq<Item>, s: Session)
    requires InDocument(work, doc) && Consistent(s)
    ensures Consistent(Run(env, doc, work, s).session)
    decreases |work|
  {
    if |work| > 0 {
      var p := Preview(env, work[0].category, s, doc[work[0].index]);
      if p.Success? {
        RunCons(env, doc, work, s, p.value);
        RunKeepsConsistent(env, doc, work[1..], p.value.session);
      }
    }
  }

  /** `loadDOM` on a freshly loaded page. */
  function LoadDOM(env: Env, doc: seq<string>): (r: ScanResult)
    ensures Consistent(r.session)
    ensures r.session.registry == Added(r.handled)
    ensures |r.handled| <= |Worklist(doc)|
    ensures forall k :: 0 <= k < |r.handled| ==> r.handled[k].item == Worklist(doc)[k]
    ensures r.fault.None? <==> |r.handled| == |Worklist(doc)|
    ensures r.fault.Some? ==>
              var it := Worklist(doc)[|r.handled|];
              Preview(env, it.category, r.session, doc[it.index]) == Failure(r.fault.value)
  {
    WorklistShape(doc);
    RunAppends(env, doc, Worklist(doc), Initial);
    RunKeepsConsistent(env, doc, Worklist(doc), Initial);
    Run(env, doc, Worklist(doc), Initial)
  }

  /** The position, among the handled anchors, of the one behind registry
      entry `l`. */
  function Source(h: seq<Handled>, l: nat): (k: nat)
    requires l < |Added(h)|
    ensures k < |h|
    decreases |h|
  {
    if h[0].added.Some? then
      if l == 0 then 0 else 1 + Source(h[1..], l - 1)
    else 1 + Source(h[1..], l)
  }

  /** That anchor is the origin of the entry and reports it. */
  lemma {:induction false} SourceReports(h: seq<Handled>, l: nat)
    requires l < |Added(h)|
    ensures h[Source(h, l)].item == Origins(h)[l] && h[Source(h, l)].added == Some(Added(h)[l])
    decreases |h|
  {
    AddedCons(h[0], h[1..]);
    assert [h[0]] + h[1..] == h;
    if h[0].added.Some? {
      if l > 0 { SourceReports(h[1..], l - 1); }
    } else {
      SourceReports(h[1..], l);
    }
  }

  /** Later entries come from later anchors. */
  lemma {:induction false} SourceIncreasing(h: seq<Handled>, l: nat, m: nat)
    requires l < m < |Added(h)|
    ensures Source(h, l) < Source(h, m)
    decreases |h|
  {
    AddedCons(h[0], h[1..]);
    assert [h[0]] + h[1..] == h;
    if h[0].added.Some? {
      assert Source(h, m) == 1 + Source(h[1..], m - 1);
      if l > 0 {
        assert Source(h, l) == 1 + Source(h[1..], l - 1);
        SourceIncreasing(h[1..], l - 1, m - 1);
      } else {
        assert Source(h, l) == 0;
      }
    } else {
      assert Source(h, l) == 1 + Source(h[1..], l);
      assert Source(h, m) == 1 + Source(h[1..], m);
      SourceIncreasing(h[1..], l, m);
    }
  }

  /** After `loadDOM`, registry entry `l` is the resolved URL of a selected
      anchor, and the entries follow the processing order: videos, audio,
      documents, PDFs, Google links, each category in document order. */
  lemma RegistryFollowsProcessingOrder(env: Env, doc: seq<string>)
    ensures var r := LoadDOM(env, doc);
            var o := Origins(r.handled);
            && |o| == |r.session.registry|
            && Ordered(o)
            && forall l :: 0 <= l < |o| ==>
                 && o[l].index < |doc|
                 && InCategory(o[l].category, doc[o[l].index])
                 && Normalize(env, env.sanitize(doc[o[l].index])) == Some(r.session.registry[l])
  {
    var w := Worklist(doc);
    WorklistShape(doc);
    assert LoadDOM(env, doc) == Run(env, doc, w, Initial);
    RunAppends(env, doc, w, Initial);
    OriginsResolve(env, doc, w, Initial);
    OriginsOrdered(env, doc, w, Initial);
  }

  /** The anchor behind each entry of a pass is a selected anchor that
      resolves to the entry. */
  lemma OriginsResolve(env: Env, doc: seq<string>, work: seq<Item>, s: Session)
    requires InDocument(work, doc)
    requires forall k :: 0 <= k < |work| ==> InCategory(work[k].category, doc[work[k].index])
    ensures var h := Run(env, doc, work, s).handled;
            var o := Origins(h);
            forall l :: 0 <= l < |o| ==>
              && o[l].index < |doc|
              && InCategory(o[l].category, doc[o[l].index])
              && Normalize(env, env.sanitize(doc[o[l].index])) == Some(Added(h)[l])
  {
    var h := Run(env, doc, work, s).handled;
    var o := Origins(h);
    RunEntriesResolve(env, doc, work, s);
    forall l | 0 <= l < |o|
      ensures o[l].index < |doc| && InCategory(o[l].category, doc[o[l].index])
      ensures Normalize(env, env.sanitize(doc[o[l].index])) == Some(Added(h)[l])
    {
      SourceReports(h, l);
    }
  }

  /** The anchors behind the entries of a pass over an ordered worklist are
      ordered too. */
  lemma OriginsOrdered(env: Env, doc: seq<string>, work: seq<Item>, s: Session)
    requires InDocument(work, doc) && Ordered(work)
    ensures Ordered(Origins(Run(env, doc, work, s).handled))
  {
    var h := Run(env, doc, work, s).handled;
    var o := Origins(h);
    forall l, m | 0 <= l < m < |o| ensures Before(o[l], o[m]) {
      SourceIncreasing(h, l, m);
      SourceReports(h, l);
      SourceReports(h, m);
    }
  }

  /** A suffix fixes the last two characters. */
  lemma SuffixEnding(s: string, t: string)
    requires EndsWith(s, t) && |t| >= 2
    ensures s[|s| - 1] == t[|t| - 1] && s[|s| - 2] == t[|t| - 2]
  {
    assert s[|s| - |t|..][|t| - 1] == s[|s| - 1];
    assert s[|s| - |t|..][|t| - 2] == s[|s| - 2];
  }

  /** The last two characters a category's suffix selectors can end in. */
  predicate EndsLike(c: Category, x: char, y: char) {
    exists k | 0 <= k < |Selectors(c)| ::
      var t := Selectors(c)[k].text; |t| >= 2 && t[|t| - 2] == x && t[|t| - 1] == y
  }

  /** Every selector outside the Google list is a suffix of at least four
      characters. */
  lemma SuffixSelectors(c: Category)
    requires c != Google
    ensures forall k :: 0 <= k < |Selectors(c)| ==> Selectors(c)[k].Suffix? && |Selectors(c)[k].text| >= 4
  {
  }

  /** A suffix-selected category must agree with the link's last two
      characters. */
  lemma {:induction false} SuffixCategoryEnding(c: Category, href: string)
    requires c != Google && InCategory(c, href)
    ensures |href| >= 2 && EndsLike(c, href[|href| - 2], href[|href| - 1])
  {
    var k :| 0 <= k < |Selectors(c)| && Matches(Selectors(c)[k], href);
    SuffixSelectors(c);
    var t := Selectors(c)[k].text;
    assert EndsWith(href, t);
    SuffixEnding(href, t);
  }

  /** A link ending in `.mp4` is selected as a video and by no other suffix
      list. */
  lemma {:induction false} Mp4IsVideoOnly(href: string)
    requires EndsWith(href, ".mp4")
    ensures InCategory(Video, href)
    ensures !InCategory(Audio, href) && !InCategory(Document, href) && !InCategory(Pdf, href)
  {
    assert Matches(Selectors(Video)[1], href);
    SuffixEnding(href, ".mp4");
    if InCategory(Audio, href) { SuffixCategoryEnding(Audio, href); }
    if InCategory(Document, href) { SuffixCategoryEnding(Document, href); }
    if InCategory(Pdf, href) { SuffixCategoryEnding(Pdf, href); }
  }

  /** A link ending in `.pdf` is selected as a PDF and by no other suffix
      list. */
  lemma {:induction false} PdfIsPdfOnly(href: string)
    requires EndsWith(href, ".pdf")
    ensures InCategory(Pdf, href)
    ensures !InCategory(Video, href) && !InCategory(Audio, href) && !InCategory(Document, href)
  {
    assert Matches(Selectors(Pdf)[0], href);
    SuffixEnding(href, ".pdf");
    if InCategory(Video, href) { SuffixCategoryEnding(Video, href); }
    if InCategory(Audio, href) { SuffixCategoryEnding(Audio, href); }
    if InCategory(Document, href) { SuffixCategoryEnding(Document, href); }
  }

  /** A page with one `.mp4` link and one `.pdf` link, both accepted and
      distinct: two registry entries, a video player and a PDF viewer. */
  lemma {:induction false} VideoAndPdfPage(env: Env, v: string, p: string)
    requires EndsWith(v, ".mp4") && EndsWith(p, ".pdf")
    requires !InCategory(Google, v) && !InCategory(Google, p)
    requires !Occurs(env.sanitize(v), Archive.Marker) && !Occurs(env.sanitize(p), Archive.Marker)
    requires var uv := env.resolve(env.sanitize(v));
             var up := env.resolve(env.sanitize(p));
             && Protocol.CheckProtocol(uv, env.protocol) && Protocol.CheckProtocol(up, env.protocol)
             && !Occurs(uv, WikimediaFilePage) && !Occurs(up, WikimediaFilePage)
             && uv != up
    ensures var uv := env.resolve(env.sanitize(v));
            var up := env.resolve(env.sanitize(p));
            LoadDOM(env, [v, p]) ==
              ScanResult(Session([uv, up], [ResetIcon, ChangeIcon(1), ChangeIcon(2)]),
                         [Handled(Item(Video, 0), Some(ContentPopup(VideoOpen + uv + VideoClose, true)), Some(uv)),
                          Handled(Item(Pdf, 1), Some(ContentPopup(PdfOpen + up + PdfClose, false)), Some(up))],
                         None)
  {
    var uv := env.resolve(env.sanitize(v));
    var up := env.resolve(env.sanitize(p));
    VideoAndPdfWorklist(v, p);
    FirstLinkStep(env, Video, Initial, v);
    FirstLinkStep(env, Pdf, Session(Initial.registry + [uv], Initial.badges + [ChangeIcon(1)]), p);
    VideoThenPdfRun(env, v, p);
  }

  /** The pass over that page's worklist. */
  lemma VideoThenPdfRun(env: Env, v: string, p: string)
    requires var uv := env.resolve(env.sanitize(v));
             var up := env.resolve(env.sanitize(p));
             var s1 := Session(Initial.registry + [uv], Initial.badges + [ChangeIcon(1)]);
             && Preview(env, Video, Initial, v) == Success(Built(Some(ContentPopup(VideoOpen + uv + VideoClose, true)), s1))
             && Preview(env, Pdf, s1, p) ==
                  Success(Built(Some(ContentPopup(PdfOpen + up + PdfClose, false)), Session(s1.registry + [up], s1.badges + [ChangeIcon(2)])))
    ensures var uv := env.resolve(env.sanitize(v));
            var up := env.resolve(env.sanitize(p));
            Run(env, [v, p], [Item(Video, 0), Item(Pdf, 1)], Initial) ==
              ScanResult(Session([uv, up], [ResetIcon, ChangeIcon(1), ChangeIcon(2)]),
                         [Handled(Item(Video, 0), Some(ContentPopup(VideoOpen + uv + VideoClose, true)), Some(uv)),
                          Handled(Item(Pdf, 1), Some(ContentPopup(PdfOpen + up + PdfClose, false)), Some(up))],
                         None)
  {
    var doc := [v, p];
    var uv := env.resolve(env.sanitize(v));
    var up := env.resolve(env.sanitize(p));
    var s1 := Session(Initial.registry + [uv], Initial.badges + [ChangeIcon(1)]);
    var s2 := Session(s1.registry + [up], s1.badges + [ChangeIcon(2)]);
    var videoPopup := Some(ContentPopup(VideoOpen + uv + VideoClose, true));
    var pdfPopup := Some(ContentPopup(PdfOpen + up + PdfClose, false));
    var w := [Item(Video, 0), Item(Pdf, 1)];
    var pdfDone := [Handled(Item(Pdf, 1), pdfPopup, Some(up))];
    assert doc[0] == v && doc[1] == p;
    assert w[1..] == [Item(Pdf, 1)] && w[1..][1..] == [];
    RunStep(env, doc, w[1..], s1, Built(pdfPopup, s2));
    RunStep(env, doc, w, Initial, Built(videoPopup, s1));
    assert s2 == Session([uv, up], [ResetIcon, ChangeIcon(1), ChangeIcon(2)]);
    assert [Handled(Item(Video, 0), videoPopup, Some(uv))] + pdfDone ==
           [Handled(Item(Video, 0), videoPopup, Some(uv)), Handled(Item(Pdf, 1), pdfPopup, Some(up))];
  }

  /** One builder call in a pass that does not throw. */
  lemma RunStep(env: Env, doc: seq<string>, work: seq<Item>, s: Session, b: Built)
    requires InDocument(work, doc) && |work| > 0
    requires Preview(env, work[0].category, s, doc[work[0].index]) == Success(b)
    requires |b.session.registry| == |s.registry| + 1
    ensures var rest := Run(env, doc, work[1..], b.session);
            Run(env, doc, work, s) ==
              ScanResult(rest.session, [Handled(work[0], b.popup, Some(b.session.registry[|s.registry|]))] + rest.handled, rest.fault)
  {
  }

  /** A new, accepted link handed to the video or PDF builder. */
  lemma FirstLinkStep(env: Env, c: Category, s: Session, href: string)
    requires c == Video || c == Pdf
    requires !Occurs(env.sanitize(href), Archive.Marker)
    requires var u := env.resolve(env.sanitize(href));
             Protocol.CheckProtocol(u, env.protocol) && !Occurs(u, WikimediaFilePage) && u !in s.registry
    ensures var u := env.resolve(env.sanitize(href));
            var content := if c == Video then VideoOpen + u + VideoClose else PdfOpen + u + PdfClose;
            Preview(env, c, s, href) ==
              Success(Built(Some(ContentPopup(content, c == Video)),
                            Session(s.registry + [u], s.badges + [ChangeIcon(|s.registry| + 1)])))
  {
    Protocol.SentinelIsRejected(env.protocol);
  }

  /** The worklist of that page: the video, then the PDF. */
  lemma VideoAndPdfWorklist(v: string, p: string)
    requires EndsWith(v, ".mp4") && EndsWith(p, ".pdf")
    requires !InCategory(Google, v) && !InCategory(Google, p)
    ensures Worklist([v, p]) == [Item(Video, 0), Item(Pdf, 1)]
  {
    var doc := [v, p];
    WorklistByCategory(doc);
    Mp4IsVideoOnly(v);
    PdfIsPdfOnly(p);
    SelectedInPair(Video, v, p);
    SelectedInPair(Audio, v, p);
    SelectedInPair(Document, v, p);
    SelectedInPair(Pdf, v, p);
    SelectedInPair(Google, v, p);
  }

  /** The worklist is the five selections laid end to end. */
  lemma WorklistByCategory(doc: seq<string>)
    ensures Worklist(doc) == Selected(Video, doc, 0) + (Selected(Audio, doc, 0) + (Selected(Document, doc, 0)
                           + (Selected(Pdf, doc, 0) + Selected(Google, doc, 0))))
  {
    WorkForCons(Google, [], doc);
    assert WorkFor([], doc) == [];
    assert Selected(Google, doc, 0) + [] == Selected(Google, doc, 0);
    WorkForCons(Pdf, [Google], doc);
    WorkForCons(Document, [Pdf, Google], doc);
    WorkForCons(Audio, [Document, Pdf, Google], doc);
    assert Order == [Video] + [Audio, Document, Pdf, Google];
    WorkForCons(Video, [Audio, Document, Pdf, Google], doc);
  }

  /** `querySelectorAll` on a page of two anchors. */
  lemma SelectedInPair(c: Category, a: string, b: string)
    ensures Selected(c, [a, b], 0) ==
              (if InCategory(c, a) then [Item(c, 0)] else []) + (if InCategory(c, b) then [Item(c, 1)] else [])
  {
    var doc := [a, b];
    assert doc[0] == a && doc[1] == b;
    assert Selected(c, doc, 2) == [];
  }

  /** The first category's selection comes first. */
  lemma WorkForCons(c: Category, cats: seq<Category>, doc: seq<string>)
    ensures WorkFor([c] + cats, doc) == Selected(c, doc, 0) + WorkFor(cats, doc)
  {
    assert ([c] + cats)[1..] == cats;
  }
}

=== FILE: wrappers.dfy ===
/** Failure-carrying wrappers used across the model. */
module Wrappers {

  /** A value that may be absent. */
  datatype Option<+T> = None | Some(value: T)

  /** Either a computed value or the error that stopped the computation. */
  datatype Result<+R, +E> = Success(value: R) | Failure(error: E)
}
